=== FILE: README.md ===
# wallpaper-maker, modelled in Dafny

A model of the core of wallpaper-maker, a Qt desktop tool. It loads a photo, applies brightness, contrast and saturation, lets the user frame a crop at a target screen resolution, and exports the result next to the source file.

The model covers:

- the pixel adjustment engine of `ImageProcessor`;
- the processor's session state: its setters, `loadImage`, `saveImage` and `cropAndScale`;
- the fixed registry tables: formats, the resolution catalog and the extension map;
- the decision rules of `MainWindow` and `ImageViewer` that do not depend on the widget toolkit.

C++ and Qt details are written out explicitly:

- C++ integer `/` truncates toward zero (`Numeric.TruncDiv`).
- `static_cast<int>` of a `double` is `Numeric.Trunc` over `real`.
- `qBound` is `Numeric.Clamp`.
- `QFileInfo`'s suffix, base name and absolute path are `FileInfo.Suffix`, `FileInfo.BaseName` and `FileInfo.AbsoluteDir`. The working directory is a parameter.
- `QComboBox::findText(…, Qt::MatchStartsWith)` is `Window.FindText`. It is a case-insensitive prefix search with no wildcards.
- `QString::arg` is `ArgFormat.Arg`. Each call fills every marker carrying the lowest number left, including markers that earlier arguments brought in.

Modules:

- `Wrappers`
- `Numeric`
- `Text`: lower-casing, trimming, replace, decimal conversion.
- `ArgFormat`: `QString::arg` place markers, and the path template `saveImage` fills.
- `FileInfo`
- `Raster`: pixels, bitmaps, sizes and rectangles.
- `Adjust`
- `CropScale`
- `Registry`
- `Session`: the processor.
- `Viewer`
- `Window`

## Model

| member | source | states |
|---|---|---|
| Numeric.TruncDiv | ImageProcessor.cpp:158 | C++ division: the quotient lies between 0 and the exact real quotient, so it rounds toward zero for either sign of the dividend |
| Numeric.TruncDivIsTrunc | ImageProcessor.cpp:158 | integer division truncating toward zero agrees with truncating the real quotient |
| Numeric.NegativeDivisionTruncates | ImageProcessor.cpp:158 | `-50 * 255 / 100` is -127 (truncated), not -128 (floored) |
| Numeric.Trunc | ImageProcessor.cpp:183-185 | `static_cast<int>`: the result is within one of the real value, on the side of zero |
| Numeric.Clamp | ImageProcessor.cpp:117 | `qBound(lo, v, hi)`: inside [lo, hi], equal to v when v is inside, otherwise the nearer bound |
| Adjust.AdjustBrightness | ImageProcessor.cpp:155-172 | each colour channel becomes `clamp(c + trunc(b*255/100), 0, 255)`; alpha, width and height are unchanged; a valid image stays valid |
| Adjust.BrightnessZero | ImageProcessor.cpp:155-172 | brightness 0 returns the image unchanged |
| Adjust.BrightnessExtremes | ImageProcessor.cpp:155-172 | brightness 100 makes every colour channel 255, and -100 makes it 0 |
| Adjust.BrightnessMonotone | ImageProcessor.cpp:158-166 | raising the brightness never lowers a channel |
| Adjust.BrightnessNegativeOffset | ImageProcessor.cpp:158 | at brightness -50, a channel of 200 becomes 73 (offset -127) |
| Adjust.ContrastFactor | ImageProcessor.cpp:177 | for contrast in [-100, 100] the factor is defined and positive |
| Adjust.AdjustContrast | ImageProcessor.cpp:174-191 | every colour channel of the result is in 0..255; alpha, width and height are unchanged |
| Adjust.ContrastZero | ImageProcessor.cpp:177-185 | contrast 0 has factor 1 and returns a valid image unchanged |
| Adjust.ContrastPivot | ImageProcessor.cpp:183-185 | a channel of 128 stays 128 at every contrast |
| Adjust.LumaInRange | ImageProcessor.cpp:207 | the truncated luma of a valid pixel is in 0..255 |
| Adjust.AdjustSaturation | ImageProcessor.cpp:193-219 | every colour channel of the result is in 0..255; alpha, width and height are unchanged |
| Adjust.SaturationZero | ImageProcessor.cpp:196-212 | saturation 0 has factor 1 and returns a valid image unchanged |
| Adjust.FullDesaturation | ImageProcessor.cpp:196-212 | at saturation -100 all three colour channels of every pixel equal its truncated luma `0.299R + 0.587G + 0.114B` |
| Adjust.ApplyAdjustments | ImageProcessor.cpp:136-153 | with all three parameters 0 the input comes back unchanged; alpha and geometry are always kept and validity is preserved |
| Adjust.ApplyIsPipeline | ImageProcessor.cpp:136-153 | skipping a stage whose parameter is 0 is only a shortcut: the result equals brightness, then contrast, then saturation |
| Adjust.StageOrderMatters | ImageProcessor.cpp:140-150 | the stage order is observable: brightness 50 then contrast 100 gives 125 on black, while the other order gives 127 |
| Raster.MapPixelsIdentity | ImageProcessor.cpp:160-169 | a per-pixel map that fixes every pixel leaves the image unchanged |
| Raster.KeepsAlphaTransitive | ImageProcessor.cpp:138-152 | alpha and geometry preservation composes across stages |
| CropScale.Crop | ImageProcessor.cpp:234 | `QImage::copy`: a null rectangle copies the whole image, a non-null empty one gives a null image; otherwise the result has the rectangle's size, with each pixel taken from the source where it exists and transparent black elsewhere |
| CropScale.CropInside | ImageProcessor.cpp:234 | for a rectangle inside the image, pixel (i, j) of the crop is source pixel (x+i, y+j) |
| CropScale.Scale | ImageProcessor.cpp:237 | `QImage::scaled` with the aspect ratio ignored: a null source or an empty target gives a null image; otherwise the result has exactly the target size whatever the source's proportions, and a source already of that size comes back unchanged |
| CropScale.CropAndScale | ImageProcessor.cpp:231-238 | a null image, an empty target or a non-null empty crop rectangle gives a null image; otherwise the output has exactly the target size for every crop rectangle, and a crop already of the target size is returned as cropped |
| Registry.MakeResolution | src/ImageProcessor.h:43-44 | the constructor stores its four arguments, and the orientation defaults to horizontal |
| Registry.CatalogShape | ImageProcessor.cpp:39-57 | the catalog has 17 entries, all horizontal, with positive width and height |
| Registry.GetFormatInfo | ImageProcessor.cpp:282-286 | only JPEG supports quality; only PNG and TIFF support transparency |
| Registry.FormatTableComplete | src/ImageProcessor.h:22-27 | each of the four formats has a table entry |
| Registry.OutputExtension | ImageProcessor.cpp:264-267 | the extension is non-empty and has no `.` or `/`; mapping it back through the extension table gives the same format |
| Registry.LowerKeysAreLower | ImageProcessor.cpp:68-79 | every key of the extension map is lower-case |
| Registry.SupportedInputExtensions | ImageProcessor.cpp:294-298 | the ten extensions, each accepted by `isFormatSupported` and already lower-case, and no others |
| Registry.SupportedOutputExtensions | ImageProcessor.cpp:300-308 | one extension per format in key order, each an input extension too |
| Registry.OutputExtensionsDistinct | ImageProcessor.cpp:60-65 | the output extensions are png, jpg, bmp, tiff, pairwise different |
| Registry.HeicExample | ImageProcessor.cpp:288-292 | the check ignores case: "HEIC" is supported and maps to JPEG |
| Registry.IsFormatSupported | ImageProcessor.cpp:288-292 | the check ignores case: true exactly when the lower-cased extension is one of jpg, jpeg, jfif, png, bmp, tiff, tif, heif, heic, gif. These are the mapping's keys, and Viewer.ImageExtensionsAreMappingKeys proves that the viewer's own list is the same set |
| Session.NewProcessor | ImageProcessor.cpp:21-30 | no image, neutral adjustments, PNG at quality 85; the invariant holds and the preview is consistent |
| Session.Recompute | ImageProcessor.cpp:118 | only the preview changes, and it becomes the original with the parameters applied |
| Session.SetBrightness | ImageProcessor.cpp:115-120 | stores the value clamped to [-100, 100], recomputes the preview from the original, and changes nothing else |
| Session.SetContrast | ImageProcessor.cpp:122-127 | as for brightness, for the contrast |
| Session.SetSaturation | ImageProcessor.cpp:129-134 | as for brightness, for the saturation |
| Session.SetOutputFormat | ImageProcessor.cpp:221-224 | stores the format and nothing else |
| Session.SetJpegQuality | ImageProcessor.cpp:226-229 | stores the quality clamped to [1, 100] and leaves the preview alone |
| Session.BrightnessLastWins | ImageProcessor.cpp:115-120 | a second brightness setting overrides the first, so repeating a value is idempotent and adjustments never compound |
| Session.ContrastLastWins | ImageProcessor.cpp:122-127 | the same for contrast |
| Session.SaturationLastWins | ImageProcessor.cpp:129-134 | the same for saturation |
| Session.SettersCommute | ImageProcessor.cpp:115-134 | the three adjustment setters commute pairwise |
| Session.DetectInputFormat | ImageProcessor.cpp:110-113 | the suffix with each character lower-cased, of the same length; the result is lower-case and is an extension-map key exactly when the suffix is supported |
| Session.FormatForPath | ImageProcessor.cpp:100-104 | the mapping's format for the lower-cased suffix when the suffix is supported, otherwise the format passed in |
| Session.LoadImage | ImageProcessor.cpp:82-108 | success exactly when decoding gives a non-null image. On failure the state is unchanged. On success both images become the decoded one, the path is stored, and the format becomes the mapped one when the extension is known (otherwise it is kept). The adjustment parameters and quality are kept. After a success the processor holds an image, and a failure never loses one |
| Session.LoadKeepsStaleParameters | ImageProcessor.cpp:96-104 | after a load with brightness 50 set, the parameters still say 50 while the preview is the unadjusted image |
| Session.SaveImage | ImageProcessor.cpp:240-262 | corrected: the path is the literal join of directory, base name, suffix and extension, not the chained `arg` of the source (Findings row 4). The write carries the image. Quality is passed exactly for JPEG. The file name is exactly the source's base name, the suffix, a `.` and the format's extension; the path's suffix and base name read back accordingly, and its directory is the source's absolute directory |
| Session.OutputPathName | ImageProcessor.cpp:242-248 | the assembled path reads back with the format's extension and base name plus suffix |
| Session.OutputPathDir | ImageProcessor.cpp:242-248 | the assembled path reads back with the source's absolute directory |
| Session.ExportThenLoadKeepsFormat | ImageProcessor.cpp:100-104 | reopening an exported file detects the extension it was written with and selects the format it was exported in |
| Session.SavePathExample | ImageProcessor.cpp:240-248 | with JPEG chosen, `/x/photo.png` with suffix `_1920x1080` is written to `/x/photo_1920x1080.jpg` |
| Session.OutputPath | ImageProcessor.cpp:244-248 | the intended path: when the suffix holds no `/`, its file name is exactly the base name, the suffix, a `.` and the extension |
| Session.OutputPathAsWrittenAgrees | ImageProcessor.cpp:244-248 | when the directory, the base name and the suffix hold no `%`, the four chained `arg` calls give exactly the intended path |
| Session.PercentInDirectoryExample | ImageProcessor.cpp:244-248 | as written, `/photos/100%2/beach.png` exported as JPEG with suffix `_1920x1080` goes to `/photos/100beach/beach_1920x1080.jpg`; the intended path is `/photos/100%2/beach_1920x1080.jpg` |
| ArgFormat.Arg | ImageProcessor.cpp:244-248 | `QString::arg`: a string without `%` comes back unchanged |
| ArgFormat.PlainPrefix | ImageProcessor.cpp:244-248 | text without `%` in front of a string is copied; the markers, and so the replacement, are those of the rest |
| ArgFormat.OneDigitMarker | ImageProcessor.cpp:244-248 | `%d` followed by a non-digit is a marker worth the digit, replaced exactly when that number is filled |
| ArgFormat.HigherMarkersKept | ImageProcessor.cpp:244-248 | filling number n leaves every string whose markers are all above n unchanged |
| ArgFormat.FillMarker | ImageProcessor.cpp:244-248 | a one-digit marker after plain text and before higher markers is the lowest one, and the call puts the argument in its place |
| ArgFormat.FillPlainTemplate | ImageProcessor.cpp:244-248 | when the directory, base name and suffix hold no `%`, the template `%1/%2%3.%4` fills to `dir/base` + suffix + `.` + extension |
| ArgFormat.MarkerInDirectory | ImageProcessor.cpp:244-248 | a directory ending in `%2`: the second call fills that marker together with the template's, so the base name also lands in the directory |
| FileInfo.Suffix | ImageProcessor.cpp:101 | `QFileInfo::suffix`: the text after the last `.` of the file name, with no `.` or `/` in it |
| FileInfo.BaseName | ImageProcessor.cpp:246 | `QFileInfo::baseName`: the file name up to its first `.`, with no `.` or `/` in it |
| FileInfo.FileName | ImageProcessor.cpp:244-246 | `QFileInfo::fileName`: the last path component holds no `/` |
| FileInfo.FileNameIsLastComponent | ImageProcessor.cpp:244-246 | the file name is the longest end of the path without `/`: the whole path, or the part after a `/` |
| FileInfo.AbsoluteDir | ImageProcessor.cpp:245 | the directory is never empty, as `QFileInfo::absolutePath` is for every non-empty path; an empty path differs (see Left out) |
| FileInfo.AbsoluteDirSplits | ImageProcessor.cpp:245 | the directory is absolute when the path or the working directory is, and an absolute path is its directory, a `/` and its file name (the root aside) |
| FileInfo.FileNameOfJoin | ImageProcessor.cpp:244-248 | the file name of `dir/name` is `name` when `name` has no `/` |
| FileInfo.SuffixOfJoin | ImageProcessor.cpp:244-248 | the suffix of `dir/base.ext` is `ext` |
| FileInfo.BaseNameOfJoin | ImageProcessor.cpp:244-248 | the base name of `dir/base.ext` is `base` when `base` has no `.` |
| FileInfo.AbsoluteDirOfJoin | ImageProcessor.cpp:245 | the directory of an absolute `dir/name` is `dir` |
| Text.NatRoundTrip | src/MainWindow.cpp:530 | reading back a printed natural number gives the number |
| Text.IntRoundTrip | src/MainWindow.cpp:530 | reading back a printed integer gives the integer |
| Text.TrimTrailingBlank | src/MainWindow.cpp:861 | trimming a name followed by white space gives the name back, when the name has no blank ends |
| Text.ReplaceTrailing | src/MainWindow.cpp:874 | removing every occurrence of a pattern from `n + pattern` gives `n` when `n` does not contain the pattern |
| Text.Lower | ImageProcessor.cpp:112 | `toLower`: the same length, each character lower-cased |
| Text.Trim | src/MainWindow.cpp:861 | `trimmed`: the result is a slice of the input with only white space before and after it, and has no white space at either end, so exactly the blank ends are removed; a string without blank ends is kept as it is |
| Text.ReplaceAll | src/MainWindow.cpp:874 | `replace`: a replacement no longer than the pattern never lengthens the string, and one of the same length keeps the length. What is replaced is stated by Text.ReplaceAllFirst and Text.ReplaceAllAbsent |
| Text.ReplaceAllFirst | src/MainWindow.cpp:874 | `replace` scans left to right: the text before the leftmost occurrence is copied, that occurrence becomes the replacement, and the rest is processed after it |
| Text.ReplaceAllAbsent | src/MainWindow.cpp:874 | a string without any occurrence of the pattern comes back unchanged |
| Text.IntToString | src/MainWindow.cpp:530 | decimal digits with a leading `-` exactly for a negative number; `Text.IntRoundTrip` reads it back |
| Viewer.IsImageFile | src/ImageViewer.cpp:416-425 | a file counts as an image exactly when its suffix, in any letter case, is supported by the processor's extension map |
| Viewer.ImageExtensionsAreMappingKeys | src/ImageViewer.cpp:418-421 | the viewer's list of extensions is exactly the set of extension-map keys |
| Viewer.ClearImage | src/ImageViewer.cpp:80-93 | no image, zoom factor back to 1, overlay hidden; the stored crop size and rectangle are untouched |
| Viewer.LandscapeSides | src/ImageViewer.cpp:138-141 | for an aspect above 1 the overlay fits within the width and height limits |
| Viewer.PortraitSides | src/ImageViewer.cpp:142-145 | for an aspect of at most 1 the overlay fits within the width and height limits |
| Viewer.CropGeometry | src/ImageViewer.cpp:127-151 | on a viewport of at least 40×40 the overlay fits inside it less the 40-pixel margin, at least 20 pixels from every edge, with opposite margins differing by at most one. Its width or height reaches the available space within one pixel, and `width * h - height * w` lies strictly between `-h` and `w` for a `w`×`h` target, so it keeps the target's proportions up to truncation. On a smaller viewport it is empty |
| Viewer.SidesShape | src/ImageViewer.cpp:129-145 | whichever branch the aspect takes, the sides keep the target's proportions up to truncation and reach the available width or height within one pixel |
| Viewer.LandscapeShape | src/ImageViewer.cpp:138-141 | for a target wider than tall, `width * h - height * w` is in [0, w), and the width is the available width or the height is within one pixel of the available height |
| Viewer.PortraitShape | src/ImageViewer.cpp:142-145 | for a target at most as wide as tall, `width * h - height * w` is in (-h, 0], and the height is the available height or the width is within one pixel of the available width |
| Viewer.LandscapeSidesExact | src/ImageViewer.cpp:138-141 | the double arithmetic, done exactly, equals the integer quotients: width `min(maxW, maxH * w / h)` and height `width * h / w`, both rounded down |
| Viewer.PortraitSidesExact | src/ImageViewer.cpp:142-145 | height `min(maxH, maxW * h / w)` and width `height * w / h`, both rounded down |
| Viewer.UpdateCropOverlay | src/ImageViewer.cpp:121-152 | without an image or with an empty target size nothing changes; otherwise only the crop rectangle is recomputed |
| Viewer.SetCropOverlay | src/ImageViewer.cpp:95-100 | stores the target size and recomputes the overlay: with an image and a non-empty size the crop rectangle becomes the centred CropGeometry for the viewport, otherwise it is kept; nothing else changes |
| Viewer.ShowCropOverlay | src/ImageViewer.cpp:102-106 | sets the visibility flag and nothing else |
| Viewer.GetCropRect | src/ImageViewer.cpp:108-119 | an empty rectangle without an image, with the overlay hidden or with an empty overlay; otherwise the overlay mapped to scene coordinates |
| Viewer.ScaleView | src/ImageViewer.cpp:209-228 | without an image, or for a change under 0.001, nothing changes. An applied change sets the zoom to the product clamped to [0.1, 10] and then recomputes the crop overlay; nothing else changes |
| Viewer.ScaleViewKeepsBounds | src/ImageViewer.cpp:215-216 | a zoom inside [0.1, 10] stays inside whatever the factor |
| Viewer.ZoomInAtMaximum | src/ImageViewer.cpp:188-191 | zooming in at the largest zoom changes nothing |
| Window.Filter | src/MainWindow.cpp:828-830 | only catalog entries of the requested orientation are listed |
| Window.FilterKeeps | src/MainWindow.cpp:828-830 | every catalog entry of the requested orientation is listed |
| Window.FilterAppend | src/MainWindow.cpp:828-836 | listing preserves catalog order: filtering a concatenation concatenates the filtered parts |
| Window.FindText | src/MainWindow.cpp:841 | the index of the first item whose text starts with the pattern, ignoring case, or none when no item does |
| Window.ItemText | src/MainWindow.cpp:831-834 | the item text starts with the entry's name followed by ` (`, which the searches and the name extraction rely on |
| Window.PopulateWith | src/MainWindow.cpp:823-848 | the items are the entries of the orientation in catalog order, labelled `name (W×H)` with their size. The first match of the search is selected, otherwise item 0, and no selection when the list is empty |
| Window.PopulateIsOk | src/MainWindow.cpp:842-847 | after filling, the selection is -1 exactly when the list is empty, and otherwise a valid index |
| Window.Populate | src/MainWindow.cpp:823-848 | corrected fill: the combo invariant holds, and the first item starting with the default name is selected when there is one |
| Window.PopulateAsWritten | src/MainWindow.cpp:839-847 | as written: the combo invariant holds and the items are those of the corrected fill; only the selection can differ |
| Window.VerticalListIsEmpty | src/MainWindow.cpp:828-837 | with the shipped catalog, the vertical list is empty and nothing is selected |
| Window.StarNeverMatches | src/MainWindow.cpp:840-841 | a pattern ending in a literal `*` matches no item whose text has no `*` |
| Window.StarDefaultFallsBack | src/MainWindow.cpp:839-847 | as written, for any catalog without `*` in its names, a non-empty list selects item 0 |
| Window.DefaultSelectionAsWritten | src/MainWindow.cpp:839-847 | as written with the shipped catalog, the selection is item 0, HD 1280×720, not Full HD |
| Window.DefaultSelectedAt | src/MainWindow.cpp:839-843 | the corrected search selects the first entry named Full HD when no earlier name starts with `f` |
| Window.DefaultSelection | src/MainWindow.cpp:839-843 | corrected, with the shipped catalog, the selection is item 2, Full HD 1920×1080 |
| Window.RestoreIndex | src/MainWindow.cpp:429-432 | a saved index is applied exactly when it names an item; otherwise the selection stays; the combo invariant is kept |
| Window.NameOf | src/MainWindow.cpp:856-863 | the name taken from an item text is empty or a plain name: non-empty, without `(`, with no white space at either end |
| Window.NameOfItem | src/MainWindow.cpp:856-863 | the name read back from an item's text (before the `(`, trimmed) is the entry's name |
| Window.TargetName | src/MainWindow.cpp:869-875 | going vertical, " Portrait" is appended to a name without "Portrait" and a name with it is kept, so the result starts with the name and contains "Portrait"; going horizontal, a name with "Portrait" loses every " Portrait" and is no longer, and one without it is kept |
| Window.TargetNameRoundTrip | src/MainWindow.cpp:869-875 | for a name without "Portrait", going vertical and back restores the name, and going horizontal leaves it alone |
| Window.ToggleWith | src/MainWindow.cpp:850-881 | the list is refilled for the new orientation. Without a remembered name the result is the freshly filled combo. Otherwise the first item matching the target name is selected, and the default selection stays when none matches |
| Window.Reselect | src/MainWindow.cpp:877-880 | `findText` then `setCurrentIndex`: the items stay, the selection moves to the first match when there is one, and nothing changes otherwise |
| Window.Toggle | src/MainWindow.cpp:850-881 | corrected: the combo invariant holds, the items are the fresh fill, and the first item starting with the target name is selected when a name was selected and an item matches |
| Window.ToggleAsWritten | src/MainWindow.cpp:877-880 | as written: the combo invariant holds and the items are those of the corrected change; only the selection can differ |
| Window.ToggleAsWrittenForgets | src/MainWindow.cpp:877-880 | as written, for any catalog without `*`, the toggle result equals the freshly filled combo: the selection is never carried over |
| Window.ToggleSelects | src/MainWindow.cpp:869-880 | corrected, the toggle selects the first entry whose text starts with the target name derived from the current entry |
| Window.ToggleExample | src/MainWindow.cpp:869-880 | corrected, with HD selected and the box checked, HD Portrait is selected |
| Window.ToggleAsWrittenExample | src/MainWindow.cpp:877-880 | as written, in the same situation, the first vertical entry (Full HD Portrait) stays selected |
| Window.MoveBrightness | src/MainWindow.cpp:656-661 | the slider shows the clamped value, and only a change calls the setter. Slider-parameter agreement, a fresh preview and a loaded image are kept |
| Window.MoveContrast | src/MainWindow.cpp:663-668 | the same for the contrast slider |
| Window.MoveSaturation | src/MainWindow.cpp:670-675 | the same for the saturation slider |
| Window.ProcessorKeepsPreviewFresh | ImageProcessor.cpp:82-134 | every setter and every load leaves the preview either the original or the adjusted original |
| Window.ResetAdjustments | src/MainWindow.cpp:544-549 | all three sliders read 0. When sliders and parameters agree, the parameters become 0 and the preview is the original |
| Window.ResetIdempotent | src/MainWindow.cpp:544-549 | resetting twice is the same as resetting once |
| Window.OpenImage | src/MainWindow.cpp:490-509 | `openImage`, `onImageDropped` and `onImageLoaded`: on success the path is remembered and the loaded processor kept; on failure nothing changes. Afterwards an image is loaded exactly when one was before or the decoder gave a non-null image, and a loaded flag always comes with a processor image |
| Window.TargetSize | src/MainWindow.cpp:517 | the selected item's size, or the invalid (empty) size when nothing is selected |
| Window.SizeSuffix | src/MainWindow.cpp:530 | the suffix `_WxH` contains no `.` or `/`, so it stays inside the base name |
| Window.SizeSuffixRoundTrip | src/MainWindow.cpp:530 | the suffix can be parsed back to the size it was made from |
| Window.SizeSuffixInjective | src/MainWindow.cpp:530 | different sizes give different suffixes |
| Window.ExportAsWrittenNeutral | src/MainWindow.cpp:526 | as written, with all three parameters at 0 the second adjustment changes nothing, so the double adjustment shows only once a slider has moved |
| Window.ExportDoubleAdjusts | src/MainWindow.cpp:526 | as written, a black pixel at brightness 50 previews as 127 but is exported as 254 |
| Window.ExportFrom | src/MainWindow.cpp:511-536 | no image: nothing; empty crop: an error and no write; otherwise exactly one write request of the cropped, scaled image with suffix `_WxH` |
| Window.SaveWallpaperAsWritten | src/MainWindow.cpp:511-536 | as written, the exported image is the crop of the preview adjusted a second time. Only the image is as written: the path is the corrected one of Session.SaveImage |
| Window.ExportBasisAsWritten | src/MainWindow.cpp:526 | as written, the image cropped for export is the preview adjusted again; it stays valid and keeps the preview's size |
| Window.SaveWallpaper | src/MainWindow.cpp:511-536 | corrected: guards as above; the file lies in the source's directory and is named after the source with `_WxH` and the format's extension; quality is passed exactly for JPEG; with an image loaded the output has the selected size (null when none is selected), and it is the crop of the preview exactly as shown |

## Left out

- Decoding and encoding (`QImageReader`, `QImageWriter`) are library I/O. The decoder's answer is an `Option` parameter of `Session.LoadImage`, the writer's success is the `saved` parameter of the export, and the error signals and messages are not modelled.
- The smooth resampling kernel of `QImage::scaled` is library code. It is a function parameter, and only the output size is claimed.
- IEEE-754 double rounding is modelled by exact `real` arithmetic followed by truncation. Results that depend on the last bit of a double are not claimed.
- Adjust.AdjustContrast: states the channel range, alpha and geometry, not each channel's exact value, because that value depends on double rounding of the factor.
- Adjust.AdjustSaturation: the same, for the luma and factor arithmetic.
- `convertToFormat(Format_ARGB32)` is not modelled. Bitmaps are taken to be ARGB already.
- `Adjust.AdjustContrast` requires a contrast in [-100, 100]. That keeps the factor's denominator away from zero, and every caller passes a value the setter has clamped.
- The getters (`getCurrentImage`, `getOutputFormat`, `getJpegQuality`, `getSupportedResolutions`, `getDefaultOutputMapping`) are field reads. The model reads the fields directly.
- Lower-casing and trimming cover ASCII letters and ASCII white space only. Qt's Unicode case folding is not modelled.
- FileInfo.AbsoluteDir: does not clean `.`, `..` or `//` segments as Qt's `absolutePath` does. The working directory is a parameter. For an empty path the model gives the working directory while Qt gives the empty string; no call site passes an empty path: `saveWallpaper` passes the path of an image that was loaded, and the open dialog's result is used only when it is not empty (src/MainWindow.cpp:503-507).
- `getCropRect`'s conversion from viewport to scene coordinates (`mapToScene`) is a function parameter.
- `setZoomFactor`, `fitToWindow`, `centerImage`, panning, painting, mouse and drag-and-drop events, menus, the status bar, settings persistence, `SettingsDialog` and `main` are widget plumbing and are not modelled.
- The crop-overlay refresh at the end of `onVerticalOrientationChanged` and the saving of the orientation preference are not modelled.
- Registry.SupportedInputExtensions: returns a set, while `getSupportedInputExtensions` returns a list in key order. No code of the core reads that order.
- ArgFormat.Arg: digits are ASCII only, while Qt's `digitValue` also accepts other Unicode digits. Field widths, fill characters and the numeric overloads' formatting flags are not modelled.
- The item text `"%1 (%2×%3)"` is also filled by chained `arg` calls (src/MainWindow.cpp:831-834). The model joins the parts directly. No name of the shipped catalog holds a `%`, so the two agree for it.
- Window.Filter: its own contract gives soundness and a length bound; completeness and order come from `Window.FilterKeeps` and `Window.FilterAppend`.

## Findings

| source | as written | input that shows it | evidently intended | confidence | as-written member | corrected member |
|---|---|---|---|---|---|---|
| src/MainWindow.cpp:840-841 | `findText("Full HD*", Qt::MatchStartsWith)` searches for a literal `*`, which no item text contains, so the default falls back to item 0 | the shipped catalog: HD (1280×720) is selected instead of Full HD | select the first item starting with "Full HD" (index 2, 1920×1080) | high, not executed | Window.DefaultSelectionAsWritten | Window.DefaultSelection |
| src/MainWindow.cpp:877 | `findText(targetName + "*", Qt::MatchStartsWith)` never matches, so an orientation change never carries the selection over | a catalog with HD, Full HD, Full HD Portrait and HD Portrait; HD selected, box checked: Full HD Portrait stays selected | select HD Portrait, the entry named after the previous one | high, not executed | Window.ToggleAsWrittenExample | Window.ToggleExample |
| src/MainWindow.cpp:526 | `applyAdjustments(getCurrentImage())` adjusts the preview, which already carries the adjustments, so the export is adjusted twice | a black pixel with brightness 50: the preview shows 127, the file gets 254 | export the preview, which already carries the adjustments once | high, not executed | Window.ExportDoubleAdjusts | Window.SaveWallpaper |
| ImageProcessor.cpp:244-248 | the output path is built by four chained `arg` calls on `"%1/%2%3.%4"`; each call fills the lowest marker left, so a `%` followed by a digit in the directory is filled by a later argument | `/photos/100%2/beach.png` at 1920×1080 as JPEG: the file goes to `/photos/100beach/beach_1920x1080.jpg` | join the directory, base name, suffix and extension literally: `/photos/100%2/beach_1920x1080.jpg` | high, not executed | Session.PercentInDirectoryExample | Session.SaveImage |

`loadImage` replaces both images but keeps the brightness, contrast and saturation (ImageProcessor.cpp:96-104). The preview then shows the unadjusted image while the parameters and sliders still hold the old values (`Session.LoadKeepsStaleParameters`). A reset of derived state on load might be expected, but the model follows the code. `Window.ProcessorKeepsPreviewFresh` states what still holds: the preview is always either the original or the adjusted original. The corrected `Window.SaveWallpaper` exports the preview as it is shown, so after such a load the file matches the screen, not the sliders.

=== FILE: adjust.dfy ===
/** The pixel adjustment engine: brightness, contrast and saturation, and
    their composition in the fixed order brightness, contrast, saturation.
    The program computes contrast and saturation in `double`; the model uses
    exact reals and truncates toward zero where the program casts to `int`. */
module Adjust {
  import opened Numeric
  import opened Raster

  /** Bounds of every adjustment parameter. */
  const MinAdjustment: int := -100
  const MaxAdjustment: int := 100

  // ---------------------------------------------------------------- brightness

  /** The integer offset added to each colour channel: `brightness * 255 / 100`
      with C++ division. */
  function BrightnessOffset(brightness: int): int {
    TruncDiv(brightness * 255, 100)
  }

  function BrightnessPixel(p: Pixel, brightness: int): Pixel {
    var d := BrightnessOffset(brightness);
    Pixel(Clamp(p.r + d, 0, 255), Clamp(p.g + d, 0, 255), Clamp(p.b + d, 0, 255), p.a)
  }

  /** Brightness: every colour channel shifted by the offset and clamped to
      0..255; alpha and geometry untouched. */
  function AdjustBrightness(img: Bitmap, brightness: int): (r: Bitmap)
    ensures KeepsAlpha(img, r)
    ensures Valid(img) ==> Valid(r)
    ensures forall y, x :: 0 <= y < |img.rows| && 0 <= x < |img.rows[y]| ==>
              var p, q := img.rows[y][x], r.rows[y][x];
              q.r == Clamp(p.r + TruncDiv(brightness * 255, 100), 0, 255) &&
              q.g == Clamp(p.g + TruncDiv(brightness * 255, 100), 0, 255) &&
              q.b == Clamp(p.b + TruncDiv(brightness * 255, 100), 0, 255)
  {
    MapPixels(img, p => BrightnessPixel(p, brightness))
  }

  /** Zero brightness changes nothing. */
  lemma BrightnessZero(img: Bitmap)
    requires Valid(img)
    ensures AdjustBrightness(img, 0) == img
  {
    MapPixelsIdentity(img, p => BrightnessPixel(p, 0));
  }

  /** Full brightness turns every colour channel white, and the lowest turns it
      black, whatever the picture. */
  lemma BrightnessExtremes(img: Bitmap)
    requires Valid(img)
    ensures forall y, x :: 0 <= y < |img.rows| && 0 <= x < |img.rows[y]| ==>
              var q := AdjustBrightness(img, MaxAdjustment).rows[y][x];
              q.r == 255 && q.g == 255 && q.b == 255
    ensures forall y, x :: 0 <= y < |img.rows| && 0 <= x < |img.rows[y]| ==>
              var q := AdjustBrightness(img, MinAdjustment).rows[y][x];
              q.r == 0 && q.g == 0 && q.b == 0
  {
    assert BrightnessOffset(MaxAdjustment) == 255;
    assert BrightnessOffset(MinAdjustment) == -255;
  }

  /** Raising the brightness never darkens a channel. */
  lemma BrightnessMonotone(p: Pixel, b1: int, b2: int)
    requires b1 <= b2
    ensures BrightnessPixel(p, b1).r <= BrightnessPixel(p, b2).r
    ensures BrightnessPixel(p, b1).g <= BrightnessPixel(p, b2).g
    ensures BrightnessPixel(p, b1).b <= BrightnessPixel(p, b2).b
  {
    TruncDivMonotone(b1 * 255, b2 * 255, 100);
  }

  lemma TruncDivMonotone(a1: int, a2: int, d: int)
    requires d > 0 && a1 <= a2
    ensures TruncDiv(a1, d) <= TruncDiv(a2, d)
  {
    var q1, q2 := TruncDiv(a1, d), TruncDiv(a2, d);
    if a1 >= 0 {
      CancelFactor(q1, q2 + 1, d);
    } else if a2 < 0 {
      CancelFactor(q1 - 1, q2, d);
    }
  }

  /** A positive factor can be cancelled from a strict inequality. */
  lemma CancelFactor(x: int, y: int, d: int)
    requires d > 0 && x * d < y * d
    ensures x < y
  {
  }

  /** A negative brightness offset is truncated toward zero as in C++: at -50 a
      channel of 200 becomes 73, not 72. */
  lemma BrightnessNegativeOffset()
    ensures BrightnessPixel(Pixel(200, 200, 200, 255), -50) == Pixel(73, 73, 73, 255)
  {
  }

  // ------------------------------------------------------------------ contrast

  /** `259 * (contrast + 255) / (255 * (259 - contrast))`. */
  function ContrastFactor(contrast: int): (f: real)
    requires MinAdjustment <= contrast <= MaxAdjustment
    ensures f > 0.0
  {
    var num, den := 259.0 * (contrast as real + 255.0), 255.0 * (259.0 - contrast as real);
    assert num > 0.0 && den > 0.0;
    num / den
  }

  function ContrastChannel(v: int, factor: real): int {
    Clamp(Trunc(factor * (v - 128) as real + 128.0), 0, 255)
  }

  function ContrastPixel(p: Pixel, factor: real): Pixel {
    Pixel(ContrastChannel(p.r, factor), ContrastChannel(p.g, factor), ContrastChannel(p.b, factor), p.a)
  }

  /** Contrast: each colour channel stretched about 128 by the contrast factor,
      truncated and clamped; alpha and geometry untouched. The range of
      `contrast` keeps the factor's denominator away from zero. */
  function AdjustContrast(img: Bitmap, contrast: int): (r: Bitmap)
    requires MinAdjustment <= contrast <= MaxAdjustment
    ensures KeepsAlpha(img, r)
    ensures forall y, x :: 0 <= y < |r.rows| && 0 <= x < |r.rows[y]| ==>
              ChannelOk(r.rows[y][x].r) && ChannelOk(r.rows[y][x].g) && ChannelOk(r.rows[y][x].b)
    ensures Valid(img) ==> Valid(r)
  {
    var f := ContrastFactor(contrast);
    MapPixels(img, p => ContrastPixel(p, f))
  }

  /** Zero contrast has factor exactly 1 and changes nothing. */
  lemma ContrastZero(img: Bitmap)
    requires Valid(img)
    ensures AdjustContrast(img, 0) == img
  {
    var f := ContrastFactor(0);
    assert f == 1.0;
    forall v | ChannelOk(v)
      ensures ContrastChannel(v, f) == v
    {
      TruncOfInt(v);
    }
    MapPixelsIdentity(img, p => ContrastPixel(p, f));
  }

  /** Mid-grey is the pivot of every contrast setting: a channel of 128 stays 128. */
  lemma ContrastPivot(contrast: int)
    requires MinAdjustment <= contrast <= MaxAdjustment
    ensures ContrastChannel(128, ContrastFactor(contrast)) == 128
  {
    TruncOfInt(128);
  }

  // ---------------------------------------------------------------- saturation

  /** `(saturation + 100) / 100`: 0 at -100, 1 at 0, 2 at 100. */
  function SaturationFactor(saturation: int): real {
    (saturation as real + 100.0) / 100.0
  }

  /** The truncated luma `0.299 R + 0.587 G + 0.114 B`. */
  function Luma(p: Pixel): int {
    Trunc(0.299 * p.r as real + 0.587 * p.g as real + 0.114 * p.b as real)
  }

  /** The luma of a valid pixel is itself a valid channel value. */
  lemma LumaInRange(p: Pixel)
    requires ValidPixel(p)
    ensures ChannelOk(Luma(p))
  {
  }

  function SaturationChannel(v: int, gray: int, factor: real): int {
    Clamp(Trunc(gray as real + factor * (v - gray) as real), 0, 255)
  }

  function SaturationPixel(p: Pixel, factor: real): Pixel {
    var gray := Luma(p);
    Pixel(SaturationChannel(p.r, gray, factor), SaturationChannel(p.g, gray, factor),
          SaturationChannel(p.b, gray, factor), p.a)
  }

  /** Saturation: each colour channel moved away from (or toward) the pixel's
      luma by the saturation factor, truncated and clamped; alpha and geometry
      untouched. */
  function AdjustSaturation(img: Bitmap, saturation: int): (r: Bitmap)
    ensures KeepsAlpha(img, r)
    ensures forall y, x :: 0 <= y < |r.rows| && 0 <= x < |r.rows[y]| ==>
              ChannelOk(r.rows[y][x].r) && ChannelOk(r.rows[y][x].g) && ChannelOk(r.rows[y][x].b)
    ensures Valid(img) ==> Valid(r)
  {
    var f := SaturationFactor(saturation);
    MapPixels(img, p => SaturationPixel(p, f))
  }

  /** Zero saturation has factor 1 and changes nothing. */
  lemma SaturationZero(img: Bitmap)
    requires Valid(img)
    ensures AdjustSaturation(img, 0) == img
  {
    var f := SaturationFactor(0);
    assert f == 1.0;
    forall v: int, gray: int | ChannelOk(v)
      ensures SaturationChannel(v, gray, f) == v
    {
      assert gray as real + f * (v - gray) as real == v as real;
      TruncOfInt(v);
    }
    MapPixelsIdentity(img, p => SaturationPixel(p, f));
  }

  /** The lowest saturation turns every pixel grey: all three colour channels
      equal the pixel's truncated luma. */
  lemma FullDesaturation(img: Bitmap)
    requires Valid(img)
    ensures forall y, x :: 0 <= y < |img.rows| && 0 <= x < |img.rows[y]| ==>
              var p, q := img.rows[y][x], AdjustSaturation(img, MinAdjustment).rows[y][x];
              q.r == Luma(p) && q.g == Luma(p) && q.b == Luma(p)
  {
    var f := SaturationFactor(MinAdjustment);
    assert f == 0.0;
    forall y, x | 0 <= y < |img.rows| && 0 <= x < |img.rows[y]|
      ensures SaturationPixel(img.rows[y][x], f).r == Luma(img.rows[y][x])
      ensures SaturationPixel(img.rows[y][x], f).g == Luma(img.rows[y][x])
      ensures SaturationPixel(img.rows[y][x], f).b == Luma(img.rows[y][x])
    {
      var p := img.rows[y][x];
      LumaInRange(p);
      TruncOfInt(Luma(p));
    }
  }

  // --------------------------------------------------------------- composition

  /** `applyAdjustments`: brightness, then contrast, then saturation, each stage
      skipped when its parameter is 0. With all three at 0 the image comes back
      unchanged; otherwise the result keeps the geometry and alpha. */
  function ApplyAdjustments(img: Bitmap, brightness: int, contrast: int, saturation: int): (r: Bitmap)
    requires MinAdjustment <= contrast <= MaxAdjustment
    ensures brightness == 0 && contrast == 0 && saturation == 0 ==> r == img
    ensures KeepsAlpha(img, r)
    ensures Valid(img) ==> Valid(r)
  {
    var r1 := if brightness != 0 then AdjustBrightness(img, brightness) else img;
    var r2 := if contrast != 0 then AdjustContrast(r1, contrast) else r1;
    var r3 := if saturation != 0 then AdjustSaturation(r2, saturation) else r2;
    KeepsAlphaTransitive(img, r1, r2);
    KeepsAlphaTransitive(img, r2, r3);
    r3
  }

  /** Skipping a stage at 0 is only a shortcut: on a valid image the result is
      the full pipeline brightness, contrast, saturation. */
  lemma ApplyIsPipeline(img: Bitmap, brightness: int, contrast: int, saturation: int)
    requires Valid(img)
    requires MinAdjustment <= contrast <= MaxAdjustment
    ensures ApplyAdjustments(img, brightness, contrast, saturation) ==
            AdjustSaturation(AdjustContrast(AdjustBrightness(img, brightness), contrast), saturation)
  {
    if brightness == 0 {
      BrightnessZero(img);
    }
    var r1 := AdjustBrightness(img, brightness);
    if contrast == 0 {
      ContrastZero(r1);
    }
    var r2 := AdjustContrast(r1, contrast);
    if saturation == 0 {
      SaturationZero(r2);
    }
  }

  /** The order of the stages matters: on a black pixel, brightness 50 then
      contrast 100 gives 125, while contrast first then brightness gives 127. */
  lemma StageOrderMatters()
    ensures ContrastPixel(BrightnessPixel(Pixel(0, 0, 0, 255), 50), ContrastFactor(100)).r == 125
    ensures BrightnessPixel(ContrastPixel(Pixel(0, 0, 0, 255), ContrastFactor(100)), 50).r == 127
  {
    var f := ContrastFactor(100);
    assert f == 91945.0 / 40545.0;
    assert BrightnessOffset(50) == 127;
    var x := f * (127 - 128) as real + 128.0;
    assert 125.0 <= x < 126.0;
    var z := f * (0 - 128) as real + 128.0;
    assert z < 0.0;
  }
}

=== FILE: argformat.dfy ===
/** `QString::arg(const QString &a)` on a format string: the place markers
    `%1`, `%2`, ... and their replacement. Each call replaces every marker
    carrying the lowest number still present, and only those. Also the path
    template `saveImage` fills with four such calls. */
module ArgFormat {
  import opened Wrappers
  import opened Text

  predicate IsDigit(c: char) {
    '0' <= c <= '9'
  }

  /** A place marker: its number and how many characters it spans. */
  datatype Marker = Marker(number: nat, length: nat)

  /** The place marker at the start of `s`, if any: `%`, an optional `L`,
      then one or two decimal digits read as one number. */
  function MarkerAt(s: string): (m: Option<Marker>)
    ensures m.Some? ==> 2 <= m.value.length <= |s| && s[0] == '%' && m.value.number < 100
    ensures |s| == 0 || s[0] != '%' ==> m.None?
  {
    if |s| < 2 || s[0] != '%' then None
    else
      var k := if s[1] == 'L' then 2 else 1;
      if k >= |s| || !IsDigit(s[k]) then None
      else if k + 1 < |s| && IsDigit(s[k + 1]) then
        Some(Marker(10 * DigitValue(s[k]) + DigitValue(s[k + 1]), k + 2))
      else Some(Marker(DigitValue(s[k]), k + 1))
  }

  /** The smaller of `n` and the optional `o`. */
  function MinWith(n: nat, o: Option<nat>): (r: nat)
    ensures r <= n && (o.Some? ==> r <= o.value)
    ensures r == n || (o.Some? && r == o.value)
  {
    match o
    case None => n
    case Some(k) => if k < n then k else n
  }

  /** The lowest marker number in `s`, scanning from left to right: a marker
      is skipped whole, any other character one at a time. */
  function LowestMarker(s: string): Option<nat>
    decreases |s|
  {
    if |s| == 0 then None
    else match MarkerAt(s)
      case Some(mk) => Some(MinWith(mk.number, LowestMarker(s[mk.length..])))
      case None => LowestMarker(s[1..])
  }

  /** `s` with every marker numbered `n` replaced by `a`, the rest copied. */
  function ReplaceMarker(s: string, n: nat, a: string): string
    decreases |s|
  {
    if |s| == 0 then []
    else match MarkerAt(s)
      case Some(mk) => (if mk.number == n then a else s[..mk.length]) + ReplaceMarker(s[mk.length..], n, a)
      case None => [s[0]] + ReplaceMarker(s[1..], n, a)
  }

  /** `s.arg(a)`: the markers with the lowest number replaced by `a`, or `s`
      unchanged when it has no marker at all. A string without `%` has none. */
  function Arg(s: string, a: string): (r: string)
    ensures '%' !in s ==> r == s
  {
    NoMarkerWithoutPercent(s);
    match LowestMarker(s)
    case None => s
    case Some(n) => ReplaceMarker(s, n, a)
  }

  /** Text without `%` holds no marker and is copied unchanged. */
  lemma {:induction false} PlainText(s: string, n: nat, a: string)
    requires '%' !in s
    ensures LowestMarker(s) == None
    ensures ReplaceMarker(s, n, a) == s
    decreases |s|
  {
    if |s| > 0 {
      assert s[0] in s;
      assert forall c :: c in s[1..] ==> c in s;
      PlainText(s[1..], n, a);
      assert [s[0]] + s[1..] == s;
    }
  }

  lemma NoMarkerWithoutPercent(s: string)
    ensures '%' !in s ==> LowestMarker(s).None?
  {
    if '%' !in s {
      PlainText(s, 0, "");
    }
  }

  /** Text without `%` in front of `t` is passed over: the markers, and so
      the replacement, are those of `t`. */
  lemma {:induction false} PlainPrefix(x: string, t: string, n: nat, a: string)
    requires '%' !in x
    ensures LowestMarker(x + t) == LowestMarker(t)
    ensures ReplaceMarker(x + t, n, a) == x + ReplaceMarker(t, n, a)
    decreases |x|
  {
    if |x| > 0 {
      assert x[0] in x;
      assert forall c :: c in x[1..] ==> c in x;
      assert (x + t)[0] == x[0];
      assert (x + t)[1..] == x[1..] + t;
      PlainPrefix(x[1..], t, n, a);
      assert [x[0]] + (x[1..] + ReplaceMarker(t, n, a)) == x + ReplaceMarker(t, n, a);
    } else {
      assert x + t == t;
    }
  }

  /** A one-digit marker `%d` in front of `t`, where `t` does not start with
      a digit: it counts with its digit's value and is replaced exactly when
      that value is the one asked for. */
  lemma OneDigitMarker(d: char, t: string, n: nat, a: string)
    requires IsDigit(d)
    requires |t| == 0 || !IsDigit(t[0])
    ensures LowestMarker("%" + [d] + t) == Some(MinWith(DigitValue(d), LowestMarker(t)))
    ensures ReplaceMarker("%" + [d] + t, n, a) ==
            (if DigitValue(d) == n then a else "%" + [d]) + ReplaceMarker(t, n, a)
  {
    var s := "%" + [d] + t;
    assert MarkerAt(s) == Some(Marker(DigitValue(d), 2));
    assert s[2..] == t;
    assert s[..2] == "%" + [d];
  }

  /** Markers numbered above `n` are left alone when `n` is replaced. */
  lemma {:induction false} HigherMarkersKept(s: string, n: nat, a: string)
    requires LowestMarker(s).None? || LowestMarker(s).value > n
    ensures ReplaceMarker(s, n, a) == s
    decreases |s|
  {
    if |s| > 0 {
      match MarkerAt(s)
      case Some(mk) =>
        HigherMarkersKept(s[mk.length..], n, a);
        assert s[..mk.length] + s[mk.length..] == s;
      case None =>
        HigherMarkersKept(s[1..], n, a);
        assert [s[0]] + s[1..] == s;
    }
  }

  // ---------------------------------------------------------------------------
  // The path template of `saveImage`
  // ---------------------------------------------------------------------------

  /** The format string `saveImage` fills in: directory, base name, suffix,
      extension. */
  const PathTemplate: string := "%1/%2%3.%4"

  /** The template filled by four chained calls, one per part. Each call
      fills the lowest-numbered marker left in the string built so far, so a
      marker inside an earlier part is filled as well. */
  function FillTemplate(d: string, b: string, s: string, e: string): string {
    Arg(Arg(Arg(Arg(PathTemplate, d), b), s), e)
  }

  /** A one-digit marker `%d` after text `x` without `%`, followed by text `t`
      whose markers all number more than `d`: it is the lowest marker, and the
      call puts `a` in its place. */
  lemma FillMarker(x: string, d: char, t: string, a: string)
    requires '%' !in x && IsDigit(d)
    requires |t| == 0 || !IsDigit(t[0])
    requires LowestMarker(t).None? || LowestMarker(t).value > DigitValue(d)
    ensures LowestMarker(x + ("%" + [d] + t)) == Some(DigitValue(d))
    ensures Arg(x + ("%" + [d] + t), a) == x + a + t
  {
    var n, m := DigitValue(d), "%" + [d] + t;
    OneDigitMarker(d, t, n, a);
    PlainPrefix(x, m, n, a);
    HigherMarkersKept(t, n, a);
    assert LowestMarker(x + m) == Some(n);
    ArgReplaces(x + m, n, a);
    Assoc(x, a, t);
  }

  /** With a lowest marker `n` present, `arg` replaces the markers numbered `n`. */
  lemma ArgReplaces(s: string, n: nat, a: string)
    requires LowestMarker(s) == Some(n)
    ensures Arg(s, a) == ReplaceMarker(s, n, a)
  {
  }

  /** What is left of the template after the first three calls: `.%4`. */
  lemma FourthMarker(t3: string)
    requires t3 == ".%4"
    ensures t3 == "." + ("%" + ['4'] + "")
    ensures LowestMarker(t3) == Some(4)
  {
    var dot, empty, four := ".", "", '4';
    assert t3 == dot + ("%" + [four] + empty);
    PlainText(empty, 0, empty);
    FillMarker(dot, four, empty, empty);
  }

  /** What is left after the first two calls: `%3.%4`. */
  lemma ThirdMarker(t2: string, t3: string)
    requires t2 == "%3.%4" && t3 == ".%4"
    ensures t2 == "" + ("%" + ['3'] + t3)
    ensures LowestMarker(t2) == Some(3)
  {
    FourthMarker(t3);
    var empty, three := "", '3';
    assert t2 == empty + ("%" + [three] + t3);
    FillMarker(empty, three, t3, empty);
  }

  /** What is left after the first call: `/%2%3.%4`. */
  lemma SecondMarker(t1: string, t2: string, t3: string)
    requires t1 == "/%2%3.%4" && t2 == "%3.%4" && t3 == ".%4"
    ensures t1 == "/" + ("%" + ['2'] + t2)
    ensures LowestMarker(t1) == Some(2)
  {
    ThirdMarker(t2, t3);
    var slash, empty, two := "/", "", '2';
    assert t1 == slash + ("%" + [two] + t2);
    FillMarker(slash, two, t2, empty);
  }

  /** The first call puts its argument in front of the rest of the template,
      whatever that argument holds. */
  lemma FillFirst(t1: string, t2: string, t3: string, d: string)
    requires t1 == "/%2%3.%4" && t2 == "%3.%4" && t3 == ".%4"
    ensures Arg(PathTemplate, d) == d + t1
  {
    SecondMarker(t1, t2, t3);
    var empty, one := "", '1';
    assert PathTemplate == empty + ("%" + [one] + t1);
    FillMarker(empty, one, t1, d);
  }

  /** The first call puts its argument in front of the rest of the template. */
  lemma FirstCall(d: string)
    ensures Arg(PathTemplate, d) == d + "/%2%3.%4"
  {
    var t1, t2, t3 := "/%2%3.%4", "%3.%4", ".%4";
    FillFirst(t1, t2, t3, d);
  }

  /** The second call on plain text followed by `/%2%3.%4`. */
  lemma SecondCall(x: string, b: string)
    requires '%' !in x
    ensures Arg(x + "/%2%3.%4", b) == x + "/" + b + "%3.%4"
  {
    var t2, t3 := "%3.%4", ".%4";
    ThirdMarker(t2, t3);
    var x1 := x + "/";
    assert '%' !in x1 by {
      NotInJoin('%', x, "/");
    }
    var two := '2';
    assert "/%2%3.%4" == "/" + ("%" + [two] + t2);
    Assoc(x, "/", "%" + [two] + t2);
    FillMarker(x1, two, t2, b);
  }

  /** The third call on plain text followed by `%3.%4`. */
  lemma ThirdCall(x: string, s: string)
    requires '%' !in x
    ensures Arg(x + "%3.%4", s) == x + s + ".%4"
  {
    var t2, t3 := "%3.%4", ".%4";
    ThirdMarker(t2, t3);
    var three := '3';
    assert x + t2 == x + ("%" + [three] + t3);
    FillMarker(x, three, t3, s);
  }

  /** The last call on plain text followed by `.%4`. */
  lemma FourthCall(x: string, e: string)
    requires '%' !in x
    ensures Arg(x + ".%4", e) == x + "." + e
  {
    var t3 := ".%4";
    FourthMarker(t3);
    var x1 := x + ".";
    assert '%' !in x1 by {
      NotInJoin('%', x, ".");
    }
    var four, empty := '4', "";
    assert x + t3 == x1 + ("%" + [four] + empty);
    FillMarker(x1, four, empty, e);
  }

  /** Parts without `%` are put in place one after the other. */
  lemma FillPlainTemplate(d: string, b: string, s: string, e: string)
    requires '%' !in d && '%' !in b && '%' !in s
    ensures FillTemplate(d, b, s, e) == d + "/" + b + s + "." + e
  {
    FirstCall(d);
    SecondCall(d, b);
    var x := d + "/" + b;
    assert '%' !in x by {
      NotInJoin('%', d, "/");
      NotInJoin('%', d + "/", b);
    }
    ThirdCall(x, s);
    assert '%' !in x + s by {
      NotInJoin('%', x, s);
    }
    FourthCall(x + s, e);
  }

  /** A directory ending in `%2`: the second call fills the directory's
      marker together with the template's, so the base name lands in the
      directory as well. */
  lemma MarkerInDirectory(p: string, b: string, s: string, e: string)
    requires '%' !in p && '%' !in b && '%' !in s
    ensures FillTemplate(p + "%2", b, s, e) == p + b + "/" + b + s + "." + e
  {
    FirstCall(p + "%2");
    SecondCallTies(p, b);
    var x := p + b + "/" + b;
    assert '%' !in x by {
      NotInJoin('%', p, b);
      NotInJoin('%', p + b, "/");
      NotInJoin('%', p + b + "/", b);
    }
    ThirdCall(x, s);
    assert '%' !in x + s by {
      NotInJoin('%', x, s);
    }
    FourthCall(x + s, e);
  }

  /** The second call on `p%2/%2%3.%4`: the directory's `%2` and the
      template's tie for the lowest marker and both are filled. */
  lemma SecondCallTies(p: string, b: string)
    requires '%' !in p
    ensures Arg(p + "%2" + "/%2%3.%4", b) == p + b + "/" + b + "%3.%4"
  {
    var t1, t2, t3 := "/%2%3.%4", "%3.%4", ".%4";
    SecondMarker(t1, t2, t3);
    ThirdMarker(t2, t3);
    var two := '2';
    var m := "%" + [two];
    assert p + "%2" + t1 == p + (m + t1);
    OneDigitMarker(two, t1, 2, b);
    PlainPrefix(p, m + t1, 2, b);
    assert LowestMarker(p + (m + t1)) == Some(2);
    assert ReplaceMarker(t1, 2, b) == "/" + (b + t2) by {
      PlainPrefix("/", m + t2, 2, b);
      OneDigitMarker(two, t2, 2, b);
      HigherMarkersKept(t2, 2, b);
    }
    assert Arg(p + (m + t1), b) == p + (b + ("/" + (b + t2)));
    Regroup4(p, b, b, t2);
  }

  /** Concatenation is associative. */
  lemma Assoc(a: string, b: string, c: string)
    ensures a + (b + c) == a + b + c
  {
  }

  /** Regrouping a five-part concatenation. */
  lemma Regroup4(p: string, b: string, c: string, t: string)
    ensures p + (b + ("/" + (c + t))) == p + b + "/" + c + t
  {
  }
}

=== FILE: cropscale.dfy ===
/** `cropAndScale`: cut a rectangle out of the image, then resample the cut
    to exactly the target size, ignoring its aspect ratio. */
module CropScale {
  import opened Raster

  /** The pixel `QImage::copy` writes where the rectangle leaves the image:
      every channel 0, transparent black. */
  const Blank: Pixel := Pixel(0, 0, 0, 0)

  /** The null `QRect()`, which `QImage::copy` reads as "the whole image". */
  predicate IsNullRect(rect: Rect) {
    rect.width == 0 && rect.height == 0
  }

  /** Whether (x, y) is a pixel of the image. */
  predicate OnImage(img: Bitmap, x: int, y: int) {
    0 <= x < img.width && 0 <= y < img.height
  }

  /** `QImage::copy(rect)`: a null source or an empty (but not null) rectangle
      gives a null image, a null rectangle copies the whole image, and any
      other rectangle gives an image of its size whose pixel (i, j) is the
      source's pixel (x + i, y + j) where that exists and blank elsewhere. */
  function Crop(img: Bitmap, rect: Rect): (r: Bitmap)
    requires Shaped(img)
    ensures IsNull(img) ==> r == NullImage
    ensures !IsNull(img) && IsNullRect(rect) ==> r == img
    ensures !IsNullRect(rect) && rect.IsEmpty() ==> r == NullImage
    ensures !IsNull(img) && !rect.IsEmpty() ==>
              Shaped(r) && r.width == rect.width && r.height == rect.height &&
              (forall j, i ::
                 0 <= j < rect.height && 0 <= i < rect.width && OnImage(img, rect.x + i, rect.y + j) ==>
                 r.rows[j][i] == img.rows[rect.y + j][rect.x + i]) &&
              (forall j, i ::
                 0 <= j < rect.height && 0 <= i < rect.width && !OnImage(img, rect.x + i, rect.y + j) ==>
                 r.rows[j][i] == Blank)
    ensures Valid(img) ==> Valid(r)
  {
    if IsNull(img) then NullImage
    else if IsNullRect(rect) then img
    else if rect.IsEmpty() then NullImage
    else
      Bitmap(rect.width, rect.height,
             seq(rect.height, j requires 0 <= j < rect.height =>
               seq(rect.width, i requires 0 <= i < rect.width =>
                 if OnImage(img, rect.x + i, rect.y + j) then img.rows[rect.y + j][rect.x + i]
                 else Blank)))
  }

  /** A rectangle wholly inside the image is copied without blank pixels. */
  lemma CropInside(img: Bitmap, rect: Rect)
    requires Shaped(img) && InsideImage(rect, img)
    ensures Crop(img, rect).width == rect.width && Crop(img, rect).height == rect.height
    ensures forall j, i :: 0 <= j < rect.height && 0 <= i < rect.width ==>
              Crop(img, rect).rows[j][i] == img.rows[rect.y + j][rect.x + i]
  {
    var r := Crop(img, rect);
    forall j, i | 0 <= j < rect.height && 0 <= i < rect.width
      ensures r.rows[j][i] == img.rows[rect.y + j][rect.x + i]
    {
      assert OnImage(img, rect.x + i, rect.y + j);
    }
  }

  /** The smooth resampling kernel of `QImage::scaled`: given the source, the
      target width and height and an output position (x, y), the output pixel.
      Its arithmetic is library code and is not modelled. */
  type Sampler = (Bitmap, int, int, int, int) -> Pixel

  /** `QImage::scaled(target, Qt::IgnoreAspectRatio, Qt::SmoothTransformation)`:
      a null image for a null source or an empty target size; the source
      itself when it already has the target size; otherwise an image of
      exactly the target size whatever the source's own proportions. */
  function Scale(src: Bitmap, target: Size, sample: Sampler): (r: Bitmap)
    requires Shaped(src)
    ensures IsNull(src) || target.IsEmpty() ==> r == NullImage
    ensures !IsNull(src) && !target.IsEmpty() ==>
              Shaped(r) && r.width == target.width && r.height == target.height
    ensures src.width == target.width && src.height == target.height && !target.IsEmpty() ==> r == src
  {
    if IsNull(src) || target.IsEmpty() then NullImage
    else if src.width == target.width && src.height == target.height then src
    else
      Bitmap(target.width, target.height,
             seq(target.height, y => seq(target.width, x => sample(src, target.width, target.height, x, y))))
  }

  /** `cropAndScale`: the cut is resampled to the target size. A null image,
      an empty target size or an empty (but not null) crop rectangle give a
      null image; otherwise the output has exactly the requested dimensions,
      whatever the crop rectangle, and a crop that already has them is
      passed on without resampling. */
  function CropAndScale(img: Bitmap, target: Size, rect: Rect, sample: Sampler): (r: Bitmap)
    requires Shaped(img)
    ensures IsNull(img) || target.IsEmpty() ==> r == NullImage
    ensures !IsNullRect(rect) && rect.IsEmpty() ==> r == NullImage
    ensures !IsNull(img) && !target.IsEmpty() && (IsNullRect(rect) || !rect.IsEmpty()) ==>
              Shaped(r) && r.width == target.width && r.height == target.height
    ensures !IsNull(img) && !rect.IsEmpty() && rect.width == target.width && rect.height == target.height ==>
              r == Crop(img, rect)
  {
    Scale(Crop(img, rect), target, sample)
  }
}

=== FILE: fileinfo.dfy ===
/** The parts of a file path that `QFileInfo` reports and the program uses:
    `fileName`, `suffix`, `baseName` and `absolutePath`. Paths use `/` as the
    separator. */
module FileInfo {

  /** Everything after the last `c` in `s`; all of `s` when `c` does not occur.
      The three postconditions characterise the result: a suffix of `s`,
      free of `c`, and either all of `s` or preceded by a `c`. */
  function AfterLast(s: string, c: char): (r: string)
    ensures |r| <= |s| && r == s[|s| - |r|..]
    ensures c !in r
    ensures |r| < |s| ==> s[|s| - |r| - 1] == c
  {
    if |s| == 0 then ""
    else if s[|s| - 1] == c then ""
    else AfterLast(s[..|s| - 1], c) + [s[|s| - 1]]
  }

  /** Everything before the first `c` in `s`; all of `s` when `c` does not occur. */
  function BeforeFirst(s: string, c: char): (r: string)
    ensures |r| <= |s| && r == s[..|r|]
    ensures c !in r
    ensures |r| < |s| ==> s[|r|] == c
  {
    if |s| == 0 then ""
    else if s[0] == c then ""
    else [s[0]] + BeforeFirst(s[1..], c)
  }

  /** Joining with a separator and taking what follows the last separator gives
      back the part that was joined, provided it holds no separator. */
  lemma {:induction false} AfterLastJoin(s: string, c: char, t: string)
    requires c !in t
    ensures AfterLast(s + [c] + t, c) == t
    decreases |t|
  {
    var u := s + [c] + t;
    if |t| > 0 {
      assert u[..|u| - 1] == s + [c] + t[..|t| - 1];
      AfterLastJoin(s, c, t[..|t| - 1]);
      assert t[..|t| - 1] + [t[|t| - 1]] == t;
    }
  }

  /** Taking what precedes the first separator of a separator-free part followed
      by anything starting with the separator gives back the part. */
  lemma {:induction false} BeforeFirstJoin(t: string, c: char, s: string)
    requires c !in t
    ensures BeforeFirst(t + [c] + s, c) == t
    decreases |t|
  {
    var u := t + [c] + s;
    if |t| > 0 {
      assert u[1..] == t[1..] + [c] + s;
      BeforeFirstJoin(t[1..], c, s);
      assert [t[0]] + t[1..] == t;
    }
  }

  /** `QFileInfo::fileName`: the last path component, that is, the longest
      end of the path without a `/`. */
  function FileName(path: string): (r: string)
    ensures '/' !in r
  {
    AfterLast(path, '/')
  }

  /** `QFileInfo::suffix`: the characters of the file name after its last `.`,
      or the empty string when the name has no `.`. */
  function Suffix(path: string): (r: string)
    ensures '.' !in r && '/' !in r
  {
    var name := FileName(path);
    if '.' in name then AfterLast(name, '.') else ""
  }

  /** `QFileInfo::baseName`: the characters of the file name before its first `.`. */
  function BaseName(path: string): (r: string)
    ensures '.' !in r && '/' !in r
  {
    BeforeFirst(FileName(path), '.')
  }

  /** `QFileInfo::absolutePath`: the directory holding the file, made absolute
      against the working directory `cwd` when `path` is relative; the root
      directory is `/`. */
  function AbsoluteDir(path: string, cwd: string): (r: string)
    ensures |r| > 0
  {
    var abs := if |path| > 0 && path[0] == '/' then path else cwd + "/" + path;
    var name := FileName(abs);
    assert '/' in abs by {
      if |path| > 0 && path[0] == '/' {
        assert abs[0] == '/';
      } else {
        assert abs[|cwd|] == '/';
      }
    }
    assert |name| < |abs|;
    var dir := abs[..|abs| - |name| - 1];
    if dir == "" then "/" else dir
  }

  /** The file name is the longest end of the path without a `/`: it is
      either the whole path or preceded by a `/`. */
  lemma FileNameIsLastComponent(path: string)
    ensures |FileName(path)| <= |path| && FileName(path) == path[|path| - |FileName(path)|..]
    ensures |FileName(path)| < |path| ==> path[|path| - |FileName(path)| - 1] == '/'
  {
  }

  /** The directory of a path is absolute when the path or the working
      directory is, and an absolute path is its directory, a `/` and its file
      name, unless the directory is the root. */
  lemma AbsoluteDirSplits(path: string, cwd: string)
    ensures (|path| > 0 && path[0] == '/') || (|cwd| > 0 && cwd[0] == '/') ==> AbsoluteDir(path, cwd)[0] == '/'
    ensures |path| > 0 && path[0] == '/' ==>
              AbsoluteDir(path, cwd) == "/" || path == AbsoluteDir(path, cwd) + "/" + FileName(path)
  {
    var abs := if |path| > 0 && path[0] == '/' then path else cwd + "/" + path;
    var name := FileName(abs);
    assert |name| < |abs| by {
      if |path| > 0 && path[0] == '/' {
        assert abs[0] == '/';
      } else {
        assert abs[|cwd|] == '/';
      }
    }
    var dir := abs[..|abs| - |name| - 1];
    assert abs == dir + "/" + name;
  }

  /** The file name of `dir/name` is `name`. */
  lemma FileNameOfJoin(dir: string, name: string)
    requires '/' !in name
    ensures FileName(dir + "/" + name) == name
  {
    assert dir + "/" + name == dir + ['/'] + name;
    AfterLastJoin(dir, '/', name);
  }

  /** The suffix of a name built as `base.ext` is `ext`. */
  lemma SuffixOfJoin(dir: string, base: string, ext: string)
    requires '/' !in base && '/' !in ext && '.' !in ext
    ensures Suffix(dir + "/" + (base + "." + ext)) == ext
  {
    var path := dir + "/" + (base + "." + ext);
    var name := base + "." + ext;
    assert path == dir + ['/'] + name;
    assert '/' !in name;
    AfterLastJoin(dir, '/', name);
    assert name == base + ['.'] + ext;
    assert name[|base|] == '.';
    AfterLastJoin(base, '.', ext);
  }

  /** The file name of `dir/name` is `name`, and the base name of a name
      without a `.` is the whole name. */
  lemma BaseNameOfJoin(dir: string, base: string, ext: string)
    requires '/' !in base && '.' !in base && '/' !in ext
    ensures BaseName(dir + "/" + (base + "." + ext)) == base
  {
    var path := dir + "/" + (base + "." + ext);
    var name := base + "." + ext;
    assert path == dir + ['/'] + name;
    AfterLastJoin(dir, '/', name);
    assert name == base + ['.'] + ext;
    BeforeFirstJoin(base, '.', ext);
  }

  /** The directory of an absolute `dir/name` is `dir` (for a non-empty `dir`). */
  lemma AbsoluteDirOfJoin(dir: string, name: string, cwd: string)
    requires |dir| > 0 && dir[0] == '/' && '/' !in name
    ensures AbsoluteDir(dir + "/" + name, cwd) == dir
  {
    var path := dir + "/" + name;
    assert path == dir + ['/'] + name;
    AfterLastJoin(dir, '/', name);
    assert path[..|path| - |name| - 1] == dir;
  }
}

=== FILE: numeric.dfy ===
/** Integer and real helpers shared by the model: Qt's `qBound`, C++ integer
    division (which truncates toward zero, unlike Dafny's Euclidean `/`) and
    `static_cast<int>` applied to a `double` (also toward zero). */
module Numeric {

  /** `qBound(lo, v, hi)`: `v` pushed into the closed range [lo, hi]. */
  function Clamp(v: int, lo: int, hi: int): (r: int)
    requires lo <= hi
    ensures lo <= r <= hi
    ensures lo <= v <= hi ==> r == v
    ensures v < lo ==> r == lo
    ensures v > hi ==> r == hi
  {
    if v < lo then lo else if v > hi then hi else v
  }

  /** `qBound` over `qreal`. */
  function ClampReal(v: real, lo: real, hi: real): (r: real)
    requires lo <= hi
    ensures lo <= r <= hi
    ensures lo <= v <= hi ==> r == v
    ensures v < lo ==> r == lo
    ensures v > hi ==> r == hi
  {
    if v < lo then lo else if v > hi then hi else v
  }

  /** `qAbs` over `qreal`. */
  function AbsReal(x: real): (r: real)
    ensures r >= 0.0
    ensures r == x || r == -x
  {
    if x < 0.0 then -x else x
  }

  /** C++ `a / d` for a positive divisor: the quotient rounded toward zero.
      The contract pins the quotient down: it has the sign of `a`, and
      `q * d` is the multiple of `d` nearest to `a` on the side of zero. */
  function TruncDiv(a: int, d: int): (q: int)
    requires d > 0
    ensures a >= 0 ==> 0 <= q && q * d <= a < q * d + d
    ensures a < 0 ==> q <= 0 && q * d - d < a <= q * d
  {
    if a >= 0 then
      FloorDivBounds(a, d);
      a / d
    else
      FloorDivBounds(-a, d);
      -((-a) / d)
  }

  /** The Euclidean quotient of a non-negative number brackets it. */
  lemma FloorDivBounds(n: int, d: int)
    requires n >= 0 && d > 0
    ensures 0 <= n / d && (n / d) * d <= n < (n / d) * d + d
  {
    assert n == (n / d) * d + n % d;
  }

  /** `static_cast<int>(x)` for a double `x` in range: the integer part,
      rounding toward zero. */
  function Trunc(x: real): (n: int)
    ensures x >= 0.0 ==> 0 <= n && n as real <= x < n as real + 1.0
    ensures x < 0.0 ==> n <= 0 && n as real - 1.0 < x <= n as real
  {
    if x >= 0.0 then x.Floor else -((-x).Floor)
  }

  /** Truncating a whole number gives it back. */
  lemma TruncOfInt(n: int)
    ensures Trunc(n as real) == n
  {
  }

  /** Truncation never moves a value away from zero past it, and is monotone. */
  lemma TruncMonotone(x: real, y: real)
    requires x <= y
    ensures Trunc(x) <= Trunc(y)
  {
  }

  /** The integer division of C++ and truncation of the exact real quotient
      agree, so `TruncDiv` is what `static_cast<int>(a / (double)d)` would give
      with exact arithmetic. */
  lemma TruncDivIsTrunc(a: int, d: int)
    requires d > 0
    ensures TruncDiv(a, d) == Trunc(a as real / d as real)
  {
    if a >= 0 {
      TruncDivNonNegative(a, d);
    } else {
      TruncDivNegative(a, d);
    }
  }

  lemma TruncDivNonNegative(a: int, d: int)
    requires a >= 0 && d > 0
    ensures TruncDiv(a, d) == Trunc(a as real / d as real)
  {
    var q := TruncDiv(a, d);
    var x := a as real / d as real;
    CastProduct(q, d);
    CastProduct(q + 1, d);
    assert q as real * d as real <= a as real < (q + 1) as real * d as real;
    DivideBounds(q as real, a as real, (q + 1) as real, d as real);
    assert q as real <= x < q as real + 1.0;
  }

  lemma TruncDivNegative(a: int, d: int)
    requires a < 0 && d > 0
    ensures TruncDiv(a, d) == Trunc(a as real / d as real)
  {
    var q := TruncDiv(a, d);
    var x := a as real / d as real;
    CastProduct(q, d);
    CastProduct(q - 1, d);
    assert (q - 1) as real * d as real < a as real <= q as real * d as real;
    DivideBounds((q - 1) as real, a as real, q as real, d as real);
    assert q as real - 1.0 < x <= q as real;
  }

  lemma CastProduct(a: int, b: int)
    ensures (a * b) as real == a as real * b as real
  {
  }

  /** Dividing a chain of inequalities by a positive real keeps its order. */
  lemma DivideBounds(lo: real, v: real, hi: real, d: real)
    requires d > 0.0
    ensures lo * d <= v ==> lo <= v / d
    ensures lo * d < v ==> lo < v / d
    ensures v < hi * d ==> v / d < hi
    ensures v <= hi * d ==> v / d <= hi
  {
    assert (v / d) * d == v;
  }

  /** Scaling by a positive factor keeps non-negative values in order. */
  lemma ScaleBounds(x: real, y: real, d: real)
    requires 0.0 <= x <= y && d > 0.0
    ensures 0.0 <= x * d <= y * d
  {
  }

  /** Multiplying a quotient back by its divisor gives the dividend. */
  lemma QuotientTimes(v: real, d: real)
    requires d > 0.0
    ensures (v / d) * d == v
  {
  }

  /** A value between 0 and `v / d`, scaled back by `d`, lies between 0 and `v`. */
  lemma ScaledQuotientBound(c: real, v: real, d: real)
    requires d > 0.0 && 0.0 <= c <= v / d
    ensures 0.0 <= c * d <= v
  {
    ScaleBounds(c, v / d, d);
    QuotientTimes(v, d);
  }

  /** Dividing by the ratio `w / h` is multiplying by `h` and dividing by `w`. */
  lemma DivideByRatio(c: int, w: int, h: int)
    requires w > 0 && h > 0
    ensures c as real / (w as real / h as real) == (c * h) as real / w as real
  {
    CastProduct(c, h);
  }

  /** Multiplying by the ratio `w / h` is multiplying by `w` and dividing by `h`. */
  lemma MultiplyByRatio(c: int, w: int, h: int)
    requires w > 0 && h > 0
    ensures c as real * (w as real / h as real) == (c * w) as real / h as real
  {
    CastProduct(c, w);
  }

  /** Truncating `c / a` for `c >= 0` and the ratio `a = w / h` is the
      integer quotient `c * h / w`. */
  lemma TruncDivideByRatio(c: int, w: int, h: int, a: real)
    requires c >= 0 && w > 0 && h > 0 && a == w as real / h as real
    ensures Trunc(c as real / a) == TruncDiv(c * h, w)
  {
    DivideByRatio(c, w, h);
    assert c * h >= 0;
    TruncDivNonNegative(c * h, w);
  }

  /** Truncating `c * a` for `c >= 0` and the ratio `a = w / h` is the
      integer quotient `c * w / h`. */
  lemma TruncMultiplyByRatio(c: int, w: int, h: int, a: real)
    requires c >= 0 && w > 0 && h > 0 && a == w as real / h as real
    ensures Trunc(c as real * a) == TruncDiv(c * w, h)
  {
    MultiplyByRatio(c, w, h);
    assert c * w >= 0;
    TruncDivNonNegative(c * w, h);
  }

  /** For positive sides, the ratio `w / h` exceeds 1 exactly when `w > h`. */
  lemma RatioAboveOne(w: int, h: int)
    requires w > 0 && h > 0
    ensures w as real / h as real > 1.0 <==> w > h
  {
    DivideBounds(1.0, w as real, 1.0, h as real);
  }

  /** A positive common factor can be cancelled from a strict inequality. */
  lemma CancelFactor(a: int, b: int, d: int)
    requires d > 0 && a * d > b * d
    ensures a > b
  {
  }

  /** Dafny's Euclidean `/` and C++'s `/` disagree on negative operands:
      the brightness offset for -50 is -127 in the program, not -128. */
  lemma NegativeDivisionTruncates()
    ensures TruncDiv(-50 * 255, 100) == -127
    ensures (-50 * 255) / 100 == -128
  {
  }
}

=== FILE: raster.dfy ===
/** The raster and geometry types: RGBA pixels, bitmaps as grids of rows,
    and `QSize`/`QRect`. A bitmap stands for a `QImage` in `Format_ARGB32`;
    row `y` holds the pixels `(0, y) .. (width - 1, y)`. */
module Raster {

  datatype Pixel = Pixel(r: int, g: int, b: int, a: int)

  predicate ChannelOk(v: int) {
    0 <= v <= 255
  }

  /** Every channel of the pixel is in 0..255. */
  predicate ValidPixel(p: Pixel) {
    ChannelOk(p.r) && ChannelOk(p.g) && ChannelOk(p.b) && ChannelOk(p.a)
  }

  datatype Bitmap = Bitmap(width: nat, height: nat, rows: seq<seq<Pixel>>)

  /** `height` rows of `width` pixels each. */
  predicate Shaped(img: Bitmap) {
    |img.rows| == img.height &&
    forall y :: 0 <= y < |img.rows| ==> |img.rows[y]| == img.width
  }

  /** A well-formed image: rectangular, with every channel in 0..255. */
  predicate Valid(img: Bitmap) {
    Shaped(img) &&
    forall y, x :: 0 <= y < |img.rows| && 0 <= x < |img.rows[y]| ==> ValidPixel(img.rows[y][x])
  }

  /** The null `QImage`. */
  const NullImage: Bitmap := Bitmap(0, 0, [])

  /** `QImage::isNull`: an image without pixels. */
  predicate IsNull(img: Bitmap) {
    img.width == 0 || img.height == 0
  }

  /** Two images of the same width and height. */
  predicate SameSize(a: Bitmap, b: Bitmap) {
    a.width == b.width && a.height == b.height
  }

  /** The grid obtained by applying `f` to every pixel, keeping the geometry. */
  function MapPixels(img: Bitmap, f: Pixel -> Pixel): (r: Bitmap)
    ensures SameSize(r, img) && |r.rows| == |img.rows|
    ensures forall y :: 0 <= y < |img.rows| ==> |r.rows[y]| == |img.rows[y]|
    ensures forall y, x :: 0 <= y < |img.rows| && 0 <= x < |img.rows[y]| ==>
              r.rows[y][x] == f(img.rows[y][x])
  {
    img.(rows := seq(|img.rows|, y requires 0 <= y < |img.rows| =>
                   seq(|img.rows[y]|, x requires 0 <= x < |img.rows[y]| => f(img.rows[y][x]))))
  }

  /** A per-pixel map that fixes every pixel leaves the image unchanged. */
  lemma MapPixelsIdentity(img: Bitmap, f: Pixel -> Pixel)
    requires forall y, x :: 0 <= y < |img.rows| && 0 <= x < |img.rows[y]| ==>
               f(img.rows[y][x]) == img.rows[y][x]
    ensures MapPixels(img, f) == img
  {
    var r := MapPixels(img, f);
    forall y | 0 <= y < |img.rows|
      ensures r.rows[y] == img.rows[y]
    {
    }
  }

  /** `r` has the same grid as `img` and every pixel kept its alpha. */
  predicate KeepsAlpha(img: Bitmap, r: Bitmap) {
    SameSize(r, img) && |r.rows| == |img.rows| &&
    (forall y :: 0 <= y < |img.rows| ==> |r.rows[y]| == |img.rows[y]|) &&
    forall y, x :: 0 <= y < |img.rows| && 0 <= x < |img.rows[y]| ==> r.rows[y][x].a == img.rows[y][x].a
  }

  /** Keeping alpha composes. */
  lemma KeepsAlphaTransitive(a: Bitmap, b: Bitmap, c: Bitmap)
    requires KeepsAlpha(a, b) && KeepsAlpha(b, c)
    ensures KeepsAlpha(a, c)
  {
  }

  /** `QSize`; empty when either side is not positive. */
  datatype Size = Size(width: int, height: int) {
    predicate IsEmpty() {
      width <= 0 || height <= 0
    }
  }

  /** `QSize()`, what an invalid `QVariant` converts to. */
  const InvalidSize: Size := Size(-1, -1)

  /** `QRect` by position and size; empty when either side is not positive. */
  datatype Rect = Rect(x: int, y: int, width: int, height: int) {
    predicate IsEmpty() {
      width <= 0 || height <= 0
    }
  }

  /** `QRect()`. */
  const NullRect: Rect := Rect(0, 0, 0, 0)

  /** A non-empty rectangle lying wholly inside the image. */
  predicate InsideImage(rect: Rect, img: Bitmap) {
    !rect.IsEmpty() &&
    0 <= rect.x && rect.x + rect.width <= img.width &&
    0 <= rect.y && rect.y + rect.height <= img.height
  }
}

=== FILE: registry.dfy ===
/** The fixed tables of the image processor: output formats and what each
    supports, the resolution catalog, and the map from an input file
    extension to the default output format. */
module Registry {
  import opened Text

  /** `ImageProcessor::OutputFormat`. */
  datatype OutputFormat = PNG | JPEG | BMP | TIFF

  /** `ImageProcessor::FormatInfo`. */
  datatype FormatInfo = FormatInfo(extension: string, description: string,
                                   supportsQuality: bool, supportsTransparency: bool)

  /** `ImageProcessor::Resolution`. */
  datatype Resolution = Resolution(width: int, height: int, name: string, description: string,
                                   isVertical: bool)

  /** The `Resolution` constructor; the orientation defaults to horizontal. */
  function MakeResolution(w: int, h: int, n: string, d: string, vertical: bool := false): (r: Resolution)
    ensures r.width == w && r.height == h && r.name == n && r.description == d
    ensures r.isVertical == vertical
  {
    Resolution(w, h, n, d, vertical)
  }

  /** The formats in declaration order, which is also the key order of the
      format table. */
  const Formats: seq<OutputFormat> := [PNG, JPEG, BMP, TIFF]

  /** The output format table. */
  const OutputFormats: map<OutputFormat, FormatInfo> := map[
    PNG := FormatInfo("png", "PNG (Portable Network Graphics)", false, true),
    JPEG := FormatInfo("jpg", "JPEG (Joint Photographic Experts Group)", true, false),
    BMP := FormatInfo("bmp", "BMP (Windows Bitmap)", false, false),
    TIFF := FormatInfo("tiff", "TIFF (Tagged Image File Format)", false, true)
  ]

  /** The resolution catalog, in declaration order: standard 16:9, 16:10,
      3:2 and ultrawide sizes, all horizontal. */
  const Resolutions: seq<Resolution> := [
    HDEntry,
    WXGAEntry,
    FullHDEntry,
    QHDEntry,
    UHD4KEntry,
    Cinema4KEntry,
    UHD8KEntry,
    WUXGAEntry,
    WQXGAEntry,
    WQUXGAEntry,
    Tablet3x2Entry,
    HighRes3x2Entry,
    Ultra3x2Entry,
    UltrawideEntry,
    UltrawideQHDEntry,
    Ultrawide5KEntry,
    SuperUltrawideEntry
  ]

  /** The catalog entries, one constant each. */
  const HDEntry: Resolution := MakeResolution(1280, 720, "HD", "1280 \U{D7} 720 (HD)")
  const WXGAEntry: Resolution := MakeResolution(1366, 768, "WXGA", "1366 \U{D7} 768 (WXGA)")
  const FullHDEntry: Resolution := MakeResolution(1920, 1080, "Full HD", "1920 \U{D7} 1080 (Full HD)")
  const QHDEntry: Resolution := MakeResolution(2560, 1440, "QHD", "2560 \U{D7} 1440 (QHD)")
  const UHD4KEntry: Resolution := MakeResolution(3840, 2160, "4K UHD", "3840 \U{D7} 2160 (4K UHD)")
  const Cinema4KEntry: Resolution := MakeResolution(4096, 2160, "Cinema 4K", "4096 \U{D7} 2160 (Cinema 4K)")
  const UHD8KEntry: Resolution := MakeResolution(7680, 4320, "8K UHD", "7680 \U{D7} 4320 (8K UHD)")
  const WUXGAEntry: Resolution := MakeResolution(1920, 1200, "WUXGA", "1920 \U{D7} 1200 (WUXGA)")
  const WQXGAEntry: Resolution := MakeResolution(2560, 1600, "WQXGA", "2560 \U{D7} 1600 (WQXGA)")
  const WQUXGAEntry: Resolution := MakeResolution(3840, 2400, "WQUXGA", "3840 \U{D7} 2400 (WQUXGA)")
  const Tablet3x2Entry: Resolution := MakeResolution(2256, 1504, "3:2 Tablet", "2256 \U{D7} 1504 (3:2 Tablet)")
  const HighRes3x2Entry: Resolution := MakeResolution(2880, 1920, "3:2 High-res", "2880 \U{D7} 1920 (3:2 High-res)")
  const Ultra3x2Entry: Resolution := MakeResolution(3000, 2000, "3:2 Ultra", "3000 \U{D7} 2000 (3:2 Ultra)")
  const UltrawideEntry: Resolution := MakeResolution(2560, 1080, "Ultrawide", "2560 \U{D7} 1080 (Ultrawide)")
  const UltrawideQHDEntry: Resolution := MakeResolution(3440, 1440, "Ultrawide QHD", "3440 \U{D7} 1440 (Ultrawide QHD)")
  const Ultrawide5KEntry: Resolution := MakeResolution(5120, 2160, "5K Ultrawide", "5120 \U{D7} 2160 (5K Ultrawide)")
  const SuperUltrawideEntry: Resolution := MakeResolution(5120, 1440, "Super Ultrawide", "5120 \U{D7} 1440 (Super Ultrawide)")

  /** The default output format for each lower-case input extension. */
  const DefaultMapping: map<string, OutputFormat> := map[
    "jpg" := JPEG, "jpeg" := JPEG, "jfif" := JPEG,
    "png" := PNG,
    "bmp" := BMP,
    "tiff" := TIFF, "tif" := TIFF,
    "heif" := JPEG, "heic" := JPEG,
    "gif" := PNG
  ]

  /** `getFormatInfo`. */
  function GetFormatInfo(format: OutputFormat): (info: FormatInfo)
    ensures info.supportsQuality <==> format == JPEG
    ensures info.supportsTransparency <==> format == PNG || format == TIFF
  {
    FormatTableComplete();
    OutputFormats[format]
  }

  /** `getOutputExtension`: the extension written for a format. */
  function OutputExtension(format: OutputFormat): (ext: string)
    ensures |ext| > 0 && '.' !in ext && '/' !in ext
    ensures ext in DefaultMapping && DefaultMapping[ext] == format
  {
    FormatTableComplete();
    OutputFormats[format].extension
  }

  /** `isFormatSupported`: whether the extension, in any letter case, is a key
      of the default mapping. */
  function IsFormatSupported(extension: string): (ok: bool)
    ensures ok <==> Lower(extension) in {"jpg", "jpeg", "jfif", "png", "bmp", "tiff", "tif", "heif", "heic", "gif"}
  {
    Lower(extension) in DefaultMapping
  }

  /** `getSupportedInputExtensions`, as a set. */
  function SupportedInputExtensions(): (exts: set<string>)
    ensures exts == {"jpg", "jpeg", "jfif", "png", "bmp", "tiff", "tif", "heif", "heic", "gif"}
    ensures forall e :: e in exts <==> IsFormatSupported(e) && Lower(e) == e
  {
    LowerKeysAreLower();
    DefaultMapping.Keys
  }

  /** Every key of the default mapping is already lower-case. */
  lemma LowerKeysAreLower()
    ensures forall e :: e in DefaultMapping ==> Lower(e) == e
  {
    forall e | e in DefaultMapping
      ensures Lower(e) == e
    {
      assert forall k :: 0 <= k < |e| ==> 'a' <= e[k] <= 'z';
    }
  }

  /** `getSupportedOutputExtensions`: one extension per format in key order. */
  function SupportedOutputExtensions(): (exts: seq<string>)
    ensures |exts| == |Formats|
    ensures forall i :: 0 <= i < |Formats| ==> exts[i] == OutputExtension(Formats[i])
    ensures forall e :: e in exts ==> e in DefaultMapping
  {
    seq(|Formats|, i requires 0 <= i < |Formats| => OutputExtension(Formats[i]))
  }

  /** The format table has an entry for each of the four formats. */
  lemma FormatTableComplete()
    ensures forall f: OutputFormat :: f in OutputFormats
    ensures forall f: OutputFormat :: f in Formats
  {
    forall f: OutputFormat
      ensures f in OutputFormats && f in Formats
    {
      match f
      case PNG => assert Formats[0] == f;
      case JPEG => assert Formats[1] == f;
      case BMP => assert Formats[2] == f;
      case TIFF => assert Formats[3] == f;
    }
  }

  /** All seventeen catalog entries are horizontal and have positive sides. */
  lemma CatalogShape()
    ensures |Resolutions| == 17
    ensures forall i :: 0 <= i < |Resolutions| ==>
              Resolutions[i].width > 0 && Resolutions[i].height > 0 && !Resolutions[i].isVertical
  {
  }

  /** The four output extensions, one per format and all different. */
  lemma OutputExtensionsDistinct()
    ensures SupportedOutputExtensions() == ["png", "jpg", "bmp", "tiff"]
    ensures forall i, j :: 0 <= i < j < |Formats| ==> OutputExtension(Formats[i]) != OutputExtension(Formats[j])
  {
  }

  /** Upper-case extensions are recognised: "HEIC" is supported and maps to JPEG. */
  lemma HeicExample()
    ensures IsFormatSupported("HEIC")
    ensures DefaultMapping[Lower("HEIC")] == JPEG
  {
    assert Lower("HEIC") == "heic";
  }
}

=== FILE: session.dfy ===
/** The image processor's session state: the loaded original image, the
    adjusted preview, the three adjustment parameters, the output format and
    the JPEG quality, with the operations that change them. Decoding and
    writing files are outside the model: a decode arrives as an optional
    bitmap, and a write is described by the request the processor makes. */
module Session {
  import opened Wrappers
  import opened Numeric
  import opened Text
  import opened FileInfo
  import opened Raster
  import opened Adjust
  import opened Registry
  import opened ArgFormat

  /** Bounds and initial value of the JPEG quality. */
  const MinQuality: int := 1
  const MaxQuality: int := 100
  const DefaultQuality: int := 85

  datatype Processor = Processor(
    original: Bitmap,
    current: Bitmap,
    filePath: string,
    brightness: int,
    contrast: int,
    saturation: int,
    format: OutputFormat,
    jpegQuality: int)

  /** What every operation keeps: parameters inside their documented ranges
      and two well-formed images of the same size. */
  predicate Invariant(p: Processor) {
    MinAdjustment <= p.brightness <= MaxAdjustment &&
    MinAdjustment <= p.contrast <= MaxAdjustment &&
    MinAdjustment <= p.saturation <= MaxAdjustment &&
    MinQuality <= p.jpegQuality <= MaxQuality &&
    Valid(p.original) && Valid(p.current) && SameSize(p.original, p.current)
  }

  /** The preview is the original with the current parameters applied once. */
  predicate Consistent(p: Processor)
    requires MinAdjustment <= p.contrast <= MaxAdjustment
  {
    p.current == ApplyAdjustments(p.original, p.brightness, p.contrast, p.saturation)
  }

  /** `stored` is `value` brought into [lo, hi], as `qBound` does on a setter's argument. */
  predicate StoredClamped(stored: int, value: int, lo: int, hi: int) {
    if value < lo then stored == lo else if value > hi then stored == hi else stored == value
  }

  /** A fresh processor: no image, neutral adjustments, PNG at quality 85. */
  function NewProcessor(): (p: Processor)
    ensures Invariant(p) && Consistent(p)
    ensures p.current == NullImage && p.original == NullImage
    ensures p.brightness == 0 && p.contrast == 0 && p.saturation == 0
    ensures p.format == PNG && p.jpegQuality == DefaultQuality
  {
    Processor(NullImage, NullImage, "", 0, 0, 0, PNG, DefaultQuality)
  }

  /** The preview recomputed from the original after a parameter change. */
  function Recompute(p: Processor): (q: Processor)
    requires Invariant(p)
    ensures Invariant(q) && Consistent(q)
    ensures q == p.(current := q.current)
  {
    p.(current := ApplyAdjustments(p.original, p.brightness, p.contrast, p.saturation))
  }

  /** `setBrightness`: stores the value clamped to [-100, 100] and recomputes the
      preview from the original; nothing else changes. */
  function SetBrightness(p: Processor, value: int): (q: Processor)
    requires Invariant(p)
    ensures Invariant(q) && Consistent(q)
    ensures StoredClamped(q.brightness, value, MinAdjustment, MaxAdjustment)
    ensures q == p.(brightness := q.brightness, current := q.current)
  {
    Recompute(p.(brightness := Clamp(value, MinAdjustment, MaxAdjustment)))
  }

  /** `setContrast`: as `setBrightness`, for the contrast. */
  function SetContrast(p: Processor, value: int): (q: Processor)
    requires Invariant(p)
    ensures Invariant(q) && Consistent(q)
    ensures StoredClamped(q.contrast, value, MinAdjustment, MaxAdjustment)
    ensures q == p.(contrast := q.contrast, current := q.current)
  {
    Recompute(p.(contrast := Clamp(value, MinAdjustment, MaxAdjustment)))
  }

  /** `setSaturation`: as `setBrightness`, for the saturation. */
  function SetSaturation(p: Processor, value: int): (q: Processor)
    requires Invariant(p)
    ensures Invariant(q) && Consistent(q)
    ensures StoredClamped(q.saturation, value, MinAdjustment, MaxAdjustment)
    ensures q == p.(saturation := q.saturation, current := q.current)
  {
    Recompute(p.(saturation := Clamp(value, MinAdjustment, MaxAdjustment)))
  }

  /** `setOutputFormat`: stores the format and nothing else. */
  function SetOutputFormat(p: Processor, format: OutputFormat): (q: Processor)
    requires Invariant(p)
    ensures Invariant(q)
    ensures q.format == format && q == p.(format := format)
  {
    p.(format := format)
  }

  /** `setJpegQuality`: stores the quality clamped to [1, 100], without touching
      the preview. */
  function SetJpegQuality(p: Processor, quality: int): (q: Processor)
    requires Invariant(p)
    ensures Invariant(q)
    ensures StoredClamped(q.jpegQuality, quality, MinQuality, MaxQuality)
    ensures q == p.(jpegQuality := q.jpegQuality)
  {
    p.(jpegQuality := Clamp(quality, MinQuality, MaxQuality))
  }

  /** Adjustments never compound in the state: a second brightness setting
      replaces the first, so setting the same value twice is setting it once. */
  lemma BrightnessLastWins(p: Processor, v1: int, v2: int)
    requires Invariant(p)
    ensures SetBrightness(SetBrightness(p, v1), v2) == SetBrightness(p, v2)
    ensures SetBrightness(SetBrightness(p, v2), v2) == SetBrightness(p, v2)
  {
  }

  lemma ContrastLastWins(p: Processor, v1: int, v2: int)
    requires Invariant(p)
    ensures SetContrast(SetContrast(p, v1), v2) == SetContrast(p, v2)
  {
  }

  lemma SaturationLastWins(p: Processor, v1: int, v2: int)
    requires Invariant(p)
    ensures SetSaturation(SetSaturation(p, v1), v2) == SetSaturation(p, v2)
  {
  }

  /** Because the preview is always recomputed from the original, the order
      in which two different parameters are set does not matter. */
  lemma SettersCommute(p: Processor, b: int, c: int, s: int)
    requires Invariant(p)
    ensures SetContrast(SetBrightness(p, b), c) == SetBrightness(SetContrast(p, c), b)
    ensures SetSaturation(SetBrightness(p, b), s) == SetBrightness(SetSaturation(p, s), b)
    ensures SetSaturation(SetContrast(p, c), s) == SetContrast(SetSaturation(p, s), c)
  {
  }

  /** `detectInputFormat`: the suffix of the path with each letter lowered,
      which is a key of the default mapping exactly when the suffix is a
      supported one. */
  function DetectInputFormat(path: string): (ext: string)
    ensures |ext| == |Suffix(path)|
    ensures forall i :: 0 <= i < |ext| ==> ext[i] == LowerChar(Suffix(path)[i])
    ensures Lower(ext) == ext
    ensures ext in DefaultMapping <==> IsFormatSupported(Suffix(path))
  {
    LowerIdempotent(Suffix(path));
    Lower(Suffix(path))
  }

  /** The default output format chosen for a file: the mapping's format for the
      detected input format if it has one, otherwise `fallback`. */
  function FormatForPath(path: string, fallback: OutputFormat): (f: OutputFormat)
    ensures IsFormatSupported(Suffix(path)) ==> f == DefaultMapping[Lower(Suffix(path))]
    ensures !IsFormatSupported(Suffix(path)) ==> f == fallback
  {
    var ext := DetectInputFormat(path);
    if ext in DefaultMapping then DefaultMapping[ext] else fallback
  }

  /** Whether the processor holds an image: its original is not null. */
  predicate HasImage(p: Processor) {
    !IsNull(p.original)
  }

  /** `loadImage`, with the decoder's answer as `decoded` (`None` when the
      file cannot be read). A null decoded image is a failure too. On success
      both images become the decoded one, the path is remembered and the
      output format follows the file's extension when it is known; on failure
      nothing changes. The adjustment parameters are left as they were. */
  function LoadImage(p: Processor, path: string, decoded: Option<Bitmap>): (res: (Processor, bool))
    requires Invariant(p)
    requires decoded.Some? ==> Valid(decoded.value)
    ensures Invariant(res.0)
    ensures res.1 <==> decoded.Some? && !IsNull(decoded.value)
    ensures res.1 ==> HasImage(res.0)
    ensures HasImage(p) ==> HasImage(res.0)
    ensures !res.1 ==> res.0 == p
    ensures res.1 ==> res.0.original == decoded.value && res.0.current == decoded.value
    ensures res.1 ==> res.0.filePath == path
    ensures res.1 && IsFormatSupported(Suffix(path)) ==>
              res.0.format == DefaultMapping[DetectInputFormat(path)]
    ensures res.1 && !IsFormatSupported(Suffix(path)) ==> res.0.format == p.format
    ensures res.0.brightness == p.brightness && res.0.contrast == p.contrast
    ensures res.0.saturation == p.saturation && res.0.jpegQuality == p.jpegQuality
  {
    match decoded
    case None => (p, false)
    case Some(img) => if IsNull(img) then (p, false) else (Loaded(p, path, img), true)
  }

  /** The state after a successful decode of `img`. */
  function Loaded(p: Processor, path: string, img: Bitmap): (q: Processor)
    requires Invariant(p) && Valid(img)
    ensures Invariant(q)
    ensures q == p.(original := img, current := img, filePath := path,
                    format := FormatForPath(path, p.format))
  {
    p.(original := img, current := img, filePath := path, format := FormatForPath(path, p.format))
  }

  /** Loading does not reapply the adjustments: with brightness 50 set before
      a black image is loaded, the preview shows the black original although
      the parameters say it should be brightened. */
  lemma LoadKeepsStaleParameters()
    ensures var p := SetBrightness(NewProcessor(), 50);
            var img := Bitmap(1, 1, [[Pixel(0, 0, 0, 255)]]);
            var q := LoadImage(p, "/x/a.png", Some(img)).0;
            q.brightness == 50 && !Consistent(q)
  {
    var img := Bitmap(1, 1, [[Pixel(0, 0, 0, 255)]]);
    var adjusted := ApplyAdjustments(img, 50, 0, 0);
    assert adjusted.rows[0][0].r == 127;
  }

  /** The write `saveImage` asks for: the output file, the image, and the
      quality option, which is passed only for JPEG. */
  datatype WriteRequest = WriteRequest(path: string, image: Bitmap, quality: Option<int>)

  /** `<absolute dir>/<base name><suffix>.<extension of the output format>`:
      when the suffix holds no `/`, the file name read back is exactly the
      base name, the suffix, a `.` and the extension. */
  function OutputPath(basePath: string, cwd: string, suffix: string, format: OutputFormat): (r: string)
    ensures '/' !in suffix ==> FileName(r) == BaseName(basePath) + suffix + "." + OutputExtension(format)
  {
    JoinedFileName(AbsoluteDir(basePath, cwd), BaseName(basePath), suffix, OutputExtension(format));
    AbsoluteDir(basePath, cwd) + "/" + (BaseName(basePath) + suffix + "." + OutputExtension(format))
  }

  /** The file name of `dir/<stem><suffix>.<ext>` is `<stem><suffix>.<ext>`
      when none of the three parts holds a `/`. */
  lemma JoinedFileName(dir: string, stem: string, suffix: string, ext: string)
    requires '/' !in stem && '/' !in ext
    ensures '/' !in suffix ==> FileName(dir + "/" + (stem + suffix + "." + ext)) == stem + suffix + "." + ext
  {
    if '/' !in suffix {
      NotInJoin('/', stem, suffix);
      NotInJoin('/', stem + suffix, ".");
      NotInJoin('/', stem + suffix + ".", ext);
      FileNameOfJoin(dir, stem + suffix + "." + ext);
    }
  }

  /** A path a process may use as its working directory. */
  predicate IsAbsolute(path: string) {
    |path| > 0 && path[0] == '/'
  }

  /** `saveImage`: the request made to the image writer. Read back with
      `QFileInfo`, the path lies in the source file's directory and its file
      name is exactly the source's base name, the suffix, a `.` and the
      extension of the chosen output format (not of the input file); its
      suffix and base name read back accordingly. The quality is handed over
      exactly when the format is JPEG. The path is the parts joined as they
      are; the chained `arg` calls of the program, which differ when a part
      holds a marker, are `OutputPathAsWritten`. */
  function SaveImage(p: Processor, basePath: string, cwd: string, suffix: string, image: Bitmap): (w: WriteRequest)
    ensures w.image == image
    ensures w.quality.Some? <==> p.format == JPEG
    ensures w.quality.Some? ==> w.quality.value == p.jpegQuality
    ensures '/' !in suffix ==>
              FileName(w.path) == BaseName(basePath) + suffix + "." + OutputExtension(p.format)
    ensures '.' !in suffix && '/' !in suffix ==>
              Suffix(w.path) == OutputExtension(p.format) &&
              BaseName(w.path) == BaseName(basePath) + suffix
    ensures '/' !in suffix && IsAbsolute(cwd) ==>
              AbsoluteDir(w.path, cwd) == AbsoluteDir(basePath, cwd)
  {
    var path := OutputPath(basePath, cwd, suffix, p.format);
    OutputPathParts(basePath, cwd, suffix, p.format);
    WriteRequest(path, image, if p.format == JPEG then Some(p.jpegQuality) else None)
  }

  lemma OutputPathParts(basePath: string, cwd: string, suffix: string, format: OutputFormat)
    ensures '/' !in suffix ==>
              FileName(OutputPath(basePath, cwd, suffix, format)) ==
              BaseName(basePath) + suffix + "." + OutputExtension(format)
    ensures '.' !in suffix && '/' !in suffix ==>
              Suffix(OutputPath(basePath, cwd, suffix, format)) == OutputExtension(format) &&
              BaseName(OutputPath(basePath, cwd, suffix, format)) == BaseName(basePath) + suffix
    ensures '/' !in suffix && IsAbsolute(cwd) ==>
              AbsoluteDir(OutputPath(basePath, cwd, suffix, format), cwd) == AbsoluteDir(basePath, cwd)
  {
    if '.' !in suffix && '/' !in suffix {
      OutputPathName(basePath, cwd, suffix, format);
    }
    if '/' !in suffix && IsAbsolute(cwd) {
      OutputPathDir(basePath, cwd, suffix, format);
    }
  }

  lemma OutputPathName(basePath: string, cwd: string, suffix: string, format: OutputFormat)
    requires '.' !in suffix && '/' !in suffix
    ensures Suffix(OutputPath(basePath, cwd, suffix, format)) == OutputExtension(format)
    ensures BaseName(OutputPath(basePath, cwd, suffix, format)) == BaseName(basePath) + suffix
  {
    var dir, stem, ext := AbsoluteDir(basePath, cwd), BaseName(basePath), OutputExtension(format);
    var base := stem + suffix;
    NotInJoin('/', stem, suffix);
    NotInJoin('.', stem, suffix);
    SuffixOfJoin(dir, base, ext);
    BaseNameOfJoin(dir, base, ext);
  }

  lemma OutputPathDir(basePath: string, cwd: string, suffix: string, format: OutputFormat)
    requires '/' !in suffix && IsAbsolute(cwd)
    ensures AbsoluteDir(OutputPath(basePath, cwd, suffix, format), cwd) == AbsoluteDir(basePath, cwd)
  {
    var dir := AbsoluteDir(basePath, cwd);
    var stem := BaseName(basePath) + suffix;
    var ext := OutputExtension(format);
    NotInJoin('/', BaseName(basePath), suffix);
    NotInJoin('/', stem, ".");
    NotInJoin('/', stem + ".", ext);
    AbsoluteDirIsAbsolute(basePath, cwd);
    assert OutputPath(basePath, cwd, suffix, format) == dir + "/" + (stem + "." + ext);
    AbsoluteDirOfJoin(dir, stem + "." + ext, cwd);
  }

  /** With an absolute working directory, the directory of any path is absolute. */
  lemma AbsoluteDirIsAbsolute(path: string, cwd: string)
    requires IsAbsolute(cwd)
    ensures IsAbsolute(AbsoluteDir(path, cwd))
  {
    var abs := if |path| > 0 && path[0] == '/' then path else cwd + "/" + path;
    assert abs[0] == '/';
  }

  /** Re-opening an exported file detects the extension it was written with
      and selects the format it was exported in. */
  lemma ExportThenLoadKeepsFormat(p: Processor, basePath: string, cwd: string, suffix: string,
                                  image: Bitmap, fallback: OutputFormat)
    requires '.' !in suffix && '/' !in suffix
    ensures DetectInputFormat(SaveImage(p, basePath, cwd, suffix, image).path) == OutputExtension(p.format)
    ensures FormatForPath(SaveImage(p, basePath, cwd, suffix, image).path, fallback) == p.format
  {
    var ext := OutputExtension(p.format);
    assert Lower(ext) == ext by {
      LowerKeysAreLower();
    }
  }

  /** With a JPEG choice, `/x/photo.png` exported with suffix `_1920x1080` is
      written to `/x/photo_1920x1080.jpg`. */
  lemma SavePathExample(p: Processor, cwd: string, image: Bitmap)
    requires p.format == JPEG
    ensures SaveImage(p, "/x/photo.png", cwd, "_1920x1080", image).path == "/x/photo_1920x1080.jpg"
  {
    ExampleOutputPath(cwd);
  }

  lemma ExampleOutputPath(cwd: string)
    ensures OutputPath("/x/photo.png", cwd, "_1920x1080", JPEG) == "/x/photo_1920x1080.jpg"
  {
    ExamplePathParts(cwd);
    JpegExtension();
    ExampleJoin(AbsoluteDir("/x/photo.png", cwd), BaseName("/x/photo.png"), OutputExtension(JPEG));
  }

  lemma JpegExtension()
    ensures OutputExtension(JPEG) == "jpg"
  {
  }

  lemma ExampleJoin(d: string, b: string, e: string)
    requires d == "/x" && b == "photo" && e == "jpg"
    ensures d + "/" + (b + "_1920x1080" + "." + e) == "/x/photo_1920x1080.jpg"
  {
  }

  lemma ExamplePathParts(cwd: string)
    ensures BaseName("/x/photo.png") == "photo"
    ensures AbsoluteDir("/x/photo.png", cwd) == "/x"
  {
    assert "/x/photo.png" == "/x" + "/" + ("photo" + "." + "png");
    BaseNameOfJoin("/x", "photo", "png");
    assert "/x/photo.png" == "/x" + "/" + "photo.png";
    AbsoluteDirOfJoin("/x", "photo.png", cwd);
  }

  // ---------------------------------------------------------------------------
  // The output path as the program assembles it
  // ---------------------------------------------------------------------------

  /** The output path as written: `saveImage` fills the template
      `%1/%2%3.%4` by four chained `QString::arg` calls. */
  function OutputPathAsWritten(basePath: string, cwd: string, suffix: string, format: OutputFormat): string {
    FillTemplate(AbsoluteDir(basePath, cwd), BaseName(basePath), suffix, OutputExtension(format))
  }

  /** When neither the directory, the base name nor the suffix holds a `%`,
      the chained calls give exactly the intended path. */
  lemma OutputPathAsWrittenAgrees(basePath: string, cwd: string, suffix: string, format: OutputFormat)
    requires '%' !in AbsoluteDir(basePath, cwd) && '%' !in BaseName(basePath) && '%' !in suffix
    ensures OutputPathAsWritten(basePath, cwd, suffix, format) == OutputPath(basePath, cwd, suffix, format)
  {
    var d, b, e := AbsoluteDir(basePath, cwd), BaseName(basePath), OutputExtension(format);
    FillPlainTemplate(d, b, suffix, e);
    Regroup(d, b, suffix, e);
  }

  /** The intended path, grouped as directory, separator and file name. */
  lemma Regroup(d: string, b: string, s: string, e: string)
    ensures d + "/" + b + s + "." + e == d + "/" + (b + s + "." + e)
  {
    var n := b + s + "." + e;
    assert d + "/" + b + s + "." + e == d + "/" + n by {
      assert (d + "/" + b + s + "." + e)[|d| + 1..] == n;
    }
  }

  /** `/photos/100%2/beach.png` exported as JPEG at 1920×1080 should go to
      `/photos/100%2/beach_1920x1080.jpg`; as written, the second call fills
      the directory's `%2` together with the template's, and the file goes to
      `/photos/100beach/beach_1920x1080.jpg`. */
  lemma PercentInDirectoryExample(cwd: string)
    ensures OutputPath("/photos/100%2/beach.png", cwd, "_1920x1080", JPEG) ==
            "/photos/100%2/beach_1920x1080.jpg"
    ensures OutputPathAsWritten("/photos/100%2/beach.png", cwd, "_1920x1080", JPEG) ==
            "/photos/100beach/beach_1920x1080.jpg"
  {
    PercentPathParts(cwd);
    JpegExtension();
    PercentStrings("/photos/100", "/photos/100%2", "beach", "_1920x1080", "jpg");
    MarkerInDirectory("/photos/100", "beach", "_1920x1080", "jpg");
  }

  /** The directory and base name of the example path. */
  lemma PercentPathParts(cwd: string)
    ensures AbsoluteDir("/photos/100%2/beach.png", cwd) == "/photos/100%2"
    ensures BaseName("/photos/100%2/beach.png") == "beach"
  {
    assert "/photos/100%2/beach.png" == "/photos/100%2" + "/" + ("beach" + "." + "png");
    BaseNameOfJoin("/photos/100%2", "beach", "png");
    assert "/photos/100%2/beach.png" == "/photos/100%2" + "/" + "beach.png";
    AbsoluteDirOfJoin("/photos/100%2", "beach.png", cwd);
  }

  /** The example's parts, and the two ways of putting them together. */
  lemma PercentStrings(p: string, d: string, b: string, s: string, e: string)
    requires p == "/photos/100" && d == "/photos/100%2"
    requires b == "beach" && s == "_1920x1080" && e == "jpg"
    ensures d == p + "%2" && '%' !in p && '%' !in b && '%' !in s
    ensures d + "/" + (b + s + "." + e) == "/photos/100%2/beach_1920x1080.jpg"
    ensures p + b + "/" + b + s + "." + e == "/photos/100beach/beach_1920x1080.jpg"
  {
  }
}

=== FILE: text.dfy ===
/** The `QString` operations the program relies on, over `seq<char>`:
    lower-casing, prefix and substring tests, `indexOf`, `trimmed`,
    `replace`, and decimal formatting of integers as `QString::arg` does. */
module Text {
  import opened Wrappers

  /** `QChar::toLower` restricted to ASCII letters. */
  function LowerChar(c: char): char {
    if 'A' <= c <= 'Z' then (c as int + 32) as char else c
  }

  /** `QString::toLower`. */
  function Lower(s: string): (r: string)
    ensures |r| == |s|
    ensures forall i :: 0 <= i < |s| ==> r[i] == LowerChar(s[i])
  {
    seq(|s|, i requires 0 <= i < |s| => LowerChar(s[i]))
  }

  /** Lower-casing twice is lower-casing once. */
  lemma LowerIdempotent(s: string)
    ensures Lower(Lower(s)) == Lower(s)
  {
  }

  /** `s.startsWith(p)` with case sensitivity. */
  predicate StartsWith(s: string, p: string) {
    |p| <= |s| && s[..|p|] == p
  }

  /** `s.startsWith(p, Qt::CaseInsensitive)`. */
  predicate StartsWithIgnoringCase(s: string, p: string) {
    StartsWith(Lower(s), Lower(p))
  }

  /** `s.contains(t)` with case sensitivity: `t` occurs at some position of `s`. */
  predicate Contains(s: string, t: string)
    decreases |s|
  {
    StartsWith(s, t) || (|s| > 0 && Contains(s[1..], t))
  }

  /** An occurrence at position `k` is what `Contains` looks for. */
  lemma ContainsAt(s: string, t: string, k: nat)
    requires k + |t| <= |s| && s[k..k + |t|] == t
    ensures Contains(s, t)
    decreases k
  {
    if k > 0 {
      assert s[1..][k - 1..k - 1 + |t|] == s[k..k + |t|];
      ContainsAt(s[1..], t, k - 1);
    }
  }

  /** A string that contains `t` keeps containing it with anything added around it. */
  lemma {:induction false} ContainsExtend(a: string, s: string, b: string, t: string)
    requires Contains(s, t)
    ensures Contains(a + s + b, t)
    decreases |s|
  {
    if StartsWith(s, t) {
      assert (a + s + b)[|a|..|a| + |t|] == s[..|t|];
      ContainsAt(a + s + b, t, |a|);
    } else {
      ContainsExtend(a + [s[0]], s[1..], b, t);
      assert a + [s[0]] + s[1..] + b == a + s + b;
    }
  }

  /** A character in neither part is not in their concatenation. */
  lemma NotInJoin(c: char, a: string, b: string)
    requires c !in a && c !in b
    ensures c !in a + b
  {
    forall k | 0 <= k < |a + b|
      ensures (a + b)[k] != c
    {
      if k < |a| {
        assert (a + b)[k] == a[k];
      } else {
        assert (a + b)[k] == b[k - |a|];
      }
    }
  }

  /** `s.indexOf(c)`: the first position holding `c`, if any. */
  function IndexOf(s: string, c: char): (r: Option<nat>)
    ensures r.Some? ==> r.value < |s| && s[r.value] == c && c !in s[..r.value]
    ensures r.None? ==> c !in s
  {
    if |s| == 0 then None
    else if s[0] == c then Some(0)
    else match IndexOf(s[1..], c)
      case None => None
      case Some(k) => assert s[..k + 1] == [s[0]] + s[1..][..k]; Some(k + 1)
  }

  /** A position holding `c` with no `c` before it is what `IndexOf` finds. */
  lemma IndexOfAt(s: string, c: char, k: nat)
    requires k < |s| && s[k] == c && c !in s[..k]
    ensures IndexOf(s, c) == Some(k)
  {
    assert s[k] in s;
  }

  /** `QChar::isSpace` restricted to ASCII white space. */
  predicate IsSpace(c: char) {
    c == ' ' || c == '\t' || c == '\n' || c == '\r' || c == '\U{B}' || c == '\U{C}'
  }

  /** Drops the leading white space of `s`. */
  function TrimStart(s: string): (r: string)
    ensures |r| <= |s| && r == s[|s| - |r|..]
    ensures forall k :: 0 <= k < |s| - |r| ==> IsSpace(s[k])
    ensures |r| == 0 || !IsSpace(r[0])
  {
    if |s| > 0 && IsSpace(s[0]) then TrimStart(s[1..]) else s
  }

  /** Drops the trailing white space of `s`. */
  function TrimEnd(s: string): (r: string)
    ensures |r| <= |s| && r == s[..|r|]
    ensures forall k :: |r| <= k < |s| ==> IsSpace(s[k])
    ensures |r| == 0 || !IsSpace(r[|r| - 1])
  {
    if |s| > 0 && IsSpace(s[|s| - 1]) then TrimEnd(s[..|s| - 1]) else s
  }

  /** Everything of `s` before `i` and from `j` on is white space. */
  predicate BlankBordered(s: string, i: int, j: int) {
    0 <= i <= j <= |s| &&
    (forall k :: 0 <= k < i ==> IsSpace(s[k])) &&
    (forall k :: j <= k < |s| ==> IsSpace(s[k]))
  }

  /** `QString::trimmed`: white space removed from both ends. The result is
      the slice of `s` left after dropping only white space before and after
      it, has no white space at either end (so the slice is the largest such
      one), and is `s` itself when `s` has none. */
  function Trim(s: string): (r: string)
    ensures forall c :: c in r ==> c in s
    ensures |r| == 0 || (!IsSpace(r[0]) && !IsSpace(r[|r| - 1]))
    ensures |s| > 0 && !IsSpace(s[0]) && !IsSpace(s[|s| - 1]) ==> r == s
    ensures exists i, j :: BlankBordered(s, i, j) && r == s[i..j]
  {
    var t := TrimStart(s);
    var r := TrimEnd(t);
    CharsOfSlice(s, |s| - |t|, |s|);
    CharsOfSlice(t, 0, |r|);
    TrimSlice(s, t, r);
    r
  }

  /** The two trimming passes leave a slice of `s` bordered only by white
      space. */
  lemma TrimSlice(s: string, t: string, r: string)
    requires |t| <= |s| && t == s[|s| - |t|..]
    requires forall k :: 0 <= k < |s| - |t| ==> IsSpace(s[k])
    requires |r| <= |t| && r == t[..|r|]
    requires forall k :: |r| <= k < |t| ==> IsSpace(t[k])
    ensures exists i, j :: BlankBordered(s, i, j) && r == s[i..j]
  {
    var i := |s| - |t|;
    var j := i + |r|;
    assert r == s[i..j];
    forall k | j <= k < |s|
      ensures IsSpace(s[k])
    {
      assert s[k] == t[k - i];
    }
    assert BlankBordered(s, i, j);
  }

  /** A slice holds only characters of the whole. */
  lemma CharsOfSlice(s: string, i: nat, j: nat)
    requires i <= j <= |s|
    ensures forall c :: c in s[i..j] ==> c in s
  {
    forall c | c in s[i..j]
      ensures c in s
    {
      var k :| 0 <= k < j - i && s[i..j][k] == c;
      assert s[i + k] == c;
    }
  }

  /** A word followed by blanks trims back to the word. */
  lemma TrimTrailingBlank(w: string, blanks: string)
    requires |w| > 0 && !IsSpace(w[0]) && !IsSpace(w[|w| - 1])
    requires forall k :: 0 <= k < |blanks| ==> IsSpace(blanks[k])
    ensures Trim(w + blanks) == w
  {
    var s := w + blanks;
    assert TrimStart(s) == s by {
      assert !IsSpace(s[0]);
    }
    var r := TrimEnd(s);
    assert !IsSpace(s[|w| - 1]);
    assert r == w;
  }

  /** `s.replace(pat, rep)`: every non-overlapping occurrence of `pat`,
      scanning left to right, replaced by `rep`. */
  function ReplaceAll(s: string, pat: string, rep: string): (r: string)
    requires |pat| > 0
    ensures |rep| <= |pat| ==> |r| <= |s|
    ensures |rep| == |pat| ==> |r| == |s|
    decreases |s|
  {
    if |s| < |pat| then s
    else if StartsWith(s, pat) then rep + ReplaceAll(s[|pat|..], pat, rep)
    else [s[0]] + ReplaceAll(s[1..], pat, rep)
  }

  /** A string without any occurrence of `pat` is left alone by `ReplaceAll`. */
  lemma {:induction false} ReplaceAllAbsent(s: string, pat: string, rep: string)
    requires |pat| > 0 && !Contains(s, pat)
    ensures ReplaceAll(s, pat, rep) == s
    decreases |s|
  {
    if |s| >= |pat| {
      ReplaceAllAbsent(s[1..], pat, rep);
      assert [s[0]] + s[1..] == s;
    }
  }

  /** `pat` occurs in `s` at position `m`. */
  predicate MatchAt(s: string, pat: string, m: int) {
    0 <= m && m + |pat| <= |s| && s[m..m + |pat|] == pat
  }

  /** `ReplaceAll` copies `s` up to the leftmost occurrence of `pat`, puts
      `rep` in its place and carries on after it. */
  lemma {:induction false} ReplaceAllFirst(s: string, pat: string, rep: string, k: nat)
    requires |pat| > 0 && MatchAt(s, pat, k)
    requires forall m :: 0 <= m < k ==> !MatchAt(s, pat, m)
    ensures ReplaceAll(s, pat, rep) == s[..k] + rep + ReplaceAll(s[k + |pat|..], pat, rep)
    decreases k
  {
    if k == 0 {
      FirstAtStart(s, pat, rep);
    } else {
      var t := s[1..];
      TailMatches(s, t, pat, k);
      ReplaceAllFirst(t, pat, rep, k - 1);
      FirstAfterSkip(s, t, pat, rep, k);
    }
  }

  /** The base case of `ReplaceAllFirst`: an occurrence at the very start. */
  lemma FirstAtStart(s: string, pat: string, rep: string)
    requires |pat| > 0 && MatchAt(s, pat, 0)
    ensures ReplaceAll(s, pat, rep) == s[..0] + rep + ReplaceAll(s[0 + |pat|..], pat, rep)
  {
    assert StartsWith(s, pat) by {
      assert s[..|pat|] == s[0..0 + |pat|];
    }
    ReplaceAllAtMatch(s, pat, rep);
    assert s[..0] + rep == rep;
  }

  /** Occurrences in the tail `t` of `s` are those of `s`, one position
      earlier. */
  lemma TailMatches(s: string, t: string, pat: string, k: nat)
    requires 0 < k && |s| > 0 && t == s[1..]
    requires MatchAt(s, pat, k) && forall m :: 0 <= m < k ==> !MatchAt(s, pat, m)
    ensures MatchAt(t, pat, k - 1) && forall m :: 0 <= m < k - 1 ==> !MatchAt(t, pat, m)
  {
    assert t[k - 1..k - 1 + |pat|] == s[k..k + |pat|];
    forall m | 0 <= m < k - 1
      ensures !MatchAt(t, pat, m)
    {
      assert !MatchAt(s, pat, m + 1);
      if m + |pat| <= |t| {
        assert t[m..m + |pat|] == s[m + 1..m + 1 + |pat|];
      }
    }
  }

  /** The step of `ReplaceAllFirst`: no occurrence at the start, so the
      first character is copied and the tail's first occurrence decides. */
  lemma FirstAfterSkip(s: string, t: string, pat: string, rep: string, k: nat)
    requires |pat| > 0 && 0 < k && MatchAt(s, pat, k) && !MatchAt(s, pat, 0) && t == s[1..]
    requires ReplaceAll(t, pat, rep) == t[..k - 1] + rep + ReplaceAll(t[k - 1 + |pat|..], pat, rep)
    ensures ReplaceAll(s, pat, rep) == s[..k] + rep + ReplaceAll(s[k + |pat|..], pat, rep)
  {
    assert !StartsWith(s, pat) by {
      assert s[..|pat|] == s[0..0 + |pat|];
    }
    ReplaceAllSkip(s, pat, rep);
    assert t[k - 1 + |pat|..] == s[k + |pat|..];
    ConsSlice(s, k, rep, ReplaceAll(s[k + |pat|..], pat, rep));
  }

  /** Putting back the first character in front of a slice of the tail. */
  lemma ConsSlice(s: string, k: nat, y: string, z: string)
    requires 0 < k <= |s|
    ensures [s[0]] + (s[1..][..k - 1] + y + z) == s[..k] + y + z
  {
    assert [s[0]] + s[1..][..k - 1] == s[..k];
  }

  /** At an occurrence of `pat`, `ReplaceAll` emits `rep` and skips it. */
  lemma ReplaceAllAtMatch(s: string, pat: string, rep: string)
    requires |pat| > 0 && StartsWith(s, pat)
    ensures ReplaceAll(s, pat, rep) == rep + ReplaceAll(s[|pat|..], pat, rep)
  {
  }

  /** Away from an occurrence of `pat`, `ReplaceAll` copies one character. */
  lemma ReplaceAllSkip(s: string, pat: string, rep: string)
    requires |pat| > 0 && |s| >= |pat| && !StartsWith(s, pat)
    ensures ReplaceAll(s, pat, rep) == [s[0]] + ReplaceAll(s[1..], pat, rep)
  {
  }

  /** A string containing `a + b` contains `b`. */
  lemma {:induction false} ContainsPart(s: string, a: string, b: string)
    requires Contains(s, a + b)
    ensures Contains(s, b)
    decreases |s|
  {
    if StartsWith(s, a + b) {
      assert s[|a|..|a| + |b|] == (a + b)[|a|..];
      ContainsAt(s, b, |a|);
    } else {
      ContainsPart(s[1..], a, b);
    }
  }

  /** Removing a pattern that occurs only as the tail of `n + pat` leaves `n`.
      The pattern's first character must not recur in it, so that no
      occurrence straddles the join. */
  lemma {:induction false} ReplaceTrailing(n: string, pat: string)
    requires |pat| > 0 && !Contains(n, pat)
    requires forall k :: 1 <= k < |pat| ==> pat[k] != pat[0]
    ensures ReplaceAll(n + pat, pat, "") == n
    decreases |n|
  {
    var s := n + pat;
    if |n| == 0 {
      assert s == pat && StartsWith(s, pat);
      assert s[|pat|..] == [];
    } else {
      assert !StartsWith(s, pat) by {
        if |n| >= |pat| {
          assert s[..|pat|] == n[..|pat|];
          assert !StartsWith(n, pat);
        } else {
          assert s[|n|] == pat[0] != pat[|n|];
        }
      }
      assert s[1..] == n[1..] + pat;
      ReplaceTrailing(n[1..], pat);
      assert [n[0]] + n[1..] == n;
    }
  }

  /** The decimal digit for 0..9. */
  function DigitChar(d: int): (c: char)
    requires 0 <= d < 10
    ensures '0' <= c <= '9'
  {
    ('0' as int + d) as char
  }

  /** The value of a decimal digit. */
  function DigitValue(c: char): (d: int)
    requires '0' <= c <= '9'
    ensures 0 <= d < 10
    ensures DigitChar(d) == c
  {
    c as int - '0' as int
  }

  predicate IsDigits(s: string) {
    |s| > 0 && forall k :: 0 <= k < |s| ==> '0' <= s[k] <= '9'
  }

  /** The decimal numeral of `n`, without leading zeros. */
  function NatToString(n: nat): (s: string)
    ensures IsDigits(s)
    ensures s[0] != '0' || s == "0"
  {
    if n < 10 then [DigitChar(n)] else NatToString(n / 10) + [DigitChar(n % 10)]
  }

  /** The value of a decimal numeral. */
  function ParseNat(s: string): (n: nat)
    requires IsDigits(s)
  {
    if |s| == 1 then DigitValue(s[0])
    else ParseNat(s[..|s| - 1]) * 10 + DigitValue(s[|s| - 1])
  }

  /** Reading back a numeral gives the number that was written. */
  lemma {:induction false} NatRoundTrip(n: nat)
    ensures ParseNat(NatToString(n)) == n
  {
    if n >= 10 {
      var s := NatToString(n);
      assert s[..|s| - 1] == NatToString(n / 10);
      NatRoundTrip(n / 10);
    }
  }

  /** `QString::number(n)` / `QString::arg(n)` for a signed integer. */
  function IntToString(n: int): (s: string)
    ensures |s| > 0
    ensures forall k :: 0 <= k < |s| ==> s[k] == '-' || '0' <= s[k] <= '9'
    ensures s[0] == '-' <==> n < 0
  {
    if n < 0 then "-" + NatToString(-n) else NatToString(n)
  }

  /** The inverse of `IntToString`; `None` when `s` is not a numeral. */
  function ParseInt(s: string): Option<int> {
    if |s| > 1 && s[0] == '-' && IsDigits(s[1..]) then Some(-(ParseNat(s[1..]) as int))
    else if IsDigits(s) then Some(ParseNat(s) as int)
    else None
  }

  /** Formatting an integer and parsing it back gives the integer again. */
  lemma IntRoundTrip(n: int)
    ensures ParseInt(IntToString(n)) == Some(n)
  {
    var s := IntToString(n);
    if n < 0 {
      var t := NatToString(-n);
      assert s == "-" + t && s[1..] == t;
      NatRoundTrip(-n);
      assert ParseInt(s) == Some(-(ParseNat(t) as int));
    } else {
      assert s == NatToString(n) && s[0] != '-';
      NatRoundTrip(n);
    }
  }
}

=== FILE: viewer.dfy ===
/** The decision rules of the image viewer that do not depend on the widget
    toolkit: which files count as images, where the centred crop overlay goes,
    when a crop rectangle is reported, and how zooming is bounded. The
    viewport-to-scene mapping is a parameter. */
module Viewer {
  import opened Numeric
  import opened Text
  import opened FileInfo
  import opened Raster
  import opened Registry

  /** Zoom bounds and the total margin left around the crop overlay. */
  const MinScaleFactor: real := 0.1
  const MaxScaleFactor: real := 10.0
  const OverlayMargin: int := 40

  /** The smallest zoom change that is applied. */
  const ScaleEpsilon: real := 0.001

  datatype ViewerState = ViewerState(
    hasImage: bool,
    scaleFactor: real,
    showCropOverlay: bool,
    cropSize: Size,
    cropRect: Rect,
    viewportWidth: nat,
    viewportHeight: nat)

  /** The extensions `isImageFile` accepts. */
  const ImageExtensions: seq<string> := ["png", "jpg", "jpeg", "jfif", "heif", "heic", "bmp", "tiff", "tif", "gif"]

  /** `isImageFile`: the lower-cased suffix is one of the listed extensions.
      The list matches the processor's mapping, so a file counts as an image
      exactly when the processor supports its suffix. */
  function IsImageFile(path: string): (ok: bool)
    ensures ok <==> IsFormatSupported(Suffix(path))
  {
    ImageExtensionsAreMappingKeys();
    assert Lower(Suffix(path)) in ImageExtensions <==> Lower(Suffix(path)) in (set e | e in ImageExtensions);
    Lower(Suffix(path)) in ImageExtensions
  }

  /** The viewer's list is exactly the set of keys of the default output
      mapping, so a dropped file is accepted exactly when the processor knows
      a default format for it. */
  lemma ImageExtensionsAreMappingKeys()
    ensures (set e | e in ImageExtensions) == DefaultMapping.Keys
  {
  }

  /** `clearImage`: no image, zoom back to 1 and the overlay hidden. */
  function ClearImage(v: ViewerState): (r: ViewerState)
    ensures !r.hasImage && r.scaleFactor == 1.0 && !r.showCropOverlay
    ensures r.cropSize == v.cropSize && r.cropRect == v.cropRect
    ensures r.viewportWidth == v.viewportWidth && r.viewportHeight == v.viewportHeight
  {
    v.(hasImage := false, scaleFactor := 1.0, showCropOverlay := false)
  }

  function Min(a: int, b: int): (m: int)
    ensures m <= a && m <= b && (m == a || m == b)
  {
    if a < b then a else b
  }

  /** The overlay's width and height for a landscape target (aspect above 1):
      as wide as fits, then the height that keeps the aspect ratio. */
  function LandscapeSides(maxW: int, maxH: int, aspect: real): (s: (int, int))
    requires aspect > 1.0
    ensures maxW >= 0 && maxH >= 0 ==> 0 <= s.0 <= maxW && 0 <= s.1 <= maxH
    ensures maxW < 0 || maxH < 0 ==> s.0 <= 0
  {
    var cw := Min(maxW, Trunc(maxH as real * aspect));
    LandscapeBounds(maxW, maxH, aspect, cw);
    (cw, Trunc(cw as real / aspect))
  }

  lemma LandscapeBounds(maxW: int, maxH: int, aspect: real, cw: int)
    requires aspect > 1.0 && cw == Min(maxW, Trunc(maxH as real * aspect))
    ensures maxW >= 0 && maxH >= 0 ==> 0 <= cw <= maxW && 0 <= Trunc(cw as real / aspect) <= maxH
    ensures maxW < 0 || maxH < 0 ==> cw <= 0
  {
    if maxW >= 0 && maxH >= 0 {
      DivideBounds(0.0, cw as real, maxH as real, aspect);
    }
    if maxH < 0 {
      assert maxH as real * aspect < 0.0;
    }
  }

  /** The overlay's sides for a portrait or square target (aspect at most 1):
      as tall as fits, then the width that keeps the aspect ratio. */
  function PortraitSides(maxW: int, maxH: int, aspect: real): (s: (int, int))
    requires 0.0 < aspect <= 1.0
    ensures maxW >= 0 && maxH >= 0 ==> 0 <= s.0 <= maxW && 0 <= s.1 <= maxH
    ensures maxW < 0 || maxH < 0 ==> s.1 <= 0
  {
    var ch := Min(maxH, Trunc(maxW as real / aspect));
    PortraitBounds(maxW, maxH, aspect, ch);
    (Trunc(ch as real * aspect), ch)
  }

  lemma PortraitBounds(maxW: int, maxH: int, aspect: real, ch: int)
    requires 0.0 < aspect <= 1.0 && ch == Min(maxH, Trunc(maxW as real / aspect))
    ensures maxW >= 0 && maxH >= 0 ==> 0 <= Trunc(ch as real * aspect) <= maxW && 0 <= ch <= maxH
    ensures maxW < 0 || maxH < 0 ==> ch <= 0
  {
    if maxW >= 0 && maxH >= 0 {
      var q := maxW as real / aspect;
      DivideBounds(0.0, maxW as real, 0.0, aspect);
      assert 0 <= ch && ch as real <= q;
      var w := ch as real * aspect;
      ScaledQuotientBound(ch as real, maxW as real, aspect);
      TruncMonotone(w, maxW as real);
      TruncOfInt(maxW);
    }
    if maxW < 0 {
      DivideBounds(0.0, maxW as real, 0.0, aspect);
    }
  }

  /** The landscape sides in integer terms: the width is the available width
      or `maxH * w / h` rounded down, and the height is `width * h / w`
      rounded down. */
  lemma LandscapeSidesExact(maxW: int, maxH: int, w: int, h: int)
    requires maxW >= 0 && maxH >= 0 && w > h > 0
    ensures w as real / h as real > 1.0
    ensures var s := LandscapeSides(maxW, maxH, w as real / h as real);
              s.0 == Min(maxW, TruncDiv(maxH * w, h)) && s.1 == TruncDiv(s.0 * h, w)
  {
    RatioAboveOne(w, h);
    var a := w as real / h as real;
    LandscapeSidesUnfold(maxW, maxH, a);
    TruncMultiplyByRatio(maxH, w, h, a);
    var s := LandscapeSides(maxW, maxH, a);
    TruncDivideByRatio(s.0, w, h, a);
  }

  lemma LandscapeSidesUnfold(maxW: int, maxH: int, aspect: real)
    requires aspect > 1.0
    ensures var s := LandscapeSides(maxW, maxH, aspect);
              s.0 == Min(maxW, Trunc(maxH as real * aspect)) && s.1 == Trunc(s.0 as real / aspect)
  {
  }

  /** The portrait sides in integer terms: the height is the available height
      or `maxW * h / w` rounded down, and the width is `height * w / h`
      rounded down. */
  lemma PortraitSidesExact(maxW: int, maxH: int, w: int, h: int)
    requires maxW >= 0 && maxH >= 0 && 0 < w <= h
    ensures 0.0 < w as real / h as real <= 1.0
    ensures var s := PortraitSides(maxW, maxH, w as real / h as real);
              s.1 == Min(maxH, TruncDiv(maxW * h, w)) && s.0 == TruncDiv(s.1 * w, h)
  {
    DivideBounds(0.0, w as real, 1.0, h as real);
    var a := w as real / h as real;
    PortraitSidesUnfold(maxW, maxH, a);
    TruncDivideByRatio(maxW, w, h, a);
    var s := PortraitSides(maxW, maxH, a);
    WidthFromHeight(s.1, s.0, w, h, a);
  }

  /** The width `cw` truncated from `ch * (w / h)` is the integer quotient. */
  lemma WidthFromHeight(ch: int, cw: int, w: int, h: int, a: real)
    requires ch >= 0 && w > 0 && h > 0 && a == w as real / h as real
    requires cw == Trunc(ch as real * a)
    ensures cw == TruncDiv(ch * w, h)
  {
    TruncMultiplyByRatio(ch, w, h, a);
  }

  lemma PortraitSidesUnfold(maxW: int, maxH: int, aspect: real)
    requires 0.0 < aspect <= 1.0
    ensures var s := PortraitSides(maxW, maxH, aspect);
              s.1 == Min(maxH, Trunc(maxW as real / aspect)) && s.0 == Trunc(s.1 as real * aspect)
  {
  }

  /** Two successive rounded-down quotients, first `m * a / b` and then back
      by `b / a` with `a >= b`, lose at most one unit of `m`. */
  lemma QuotientReach(q1: int, q2: int, m: int, a: int, b: int)
    requires a >= b > 0
    requires q1 * b <= m * a < q1 * b + b
    requires q2 * a <= q1 * b < q2 * a + a
    ensures q2 >= m - 1
  {
    assert (q2 + 2) * a == q2 * a + 2 * a;
    CancelFactor(q2 + 2, m, a);
  }

  /** For a landscape target of `w` by `h`, the overlay keeps the target's
      proportions up to truncation and reaches the available width or,
      within one pixel, the available height. */
  lemma LandscapeShape(maxW: int, maxH: int, w: int, h: int)
    requires maxW >= 0 && maxH >= 0 && w > h > 0
    ensures w as real / h as real > 1.0
    ensures var s := LandscapeSides(maxW, maxH, w as real / h as real);
              0 <= s.0 * h - s.1 * w < w && (s.0 == maxW || s.1 >= maxH - 1)
  {
    LandscapeSidesExact(maxW, maxH, w, h);
    var s := LandscapeSides(maxW, maxH, w as real / h as real);
    if s.0 != maxW {
      QuotientReach(s.0, s.1, maxH, w, h);
    }
  }

  /** For a portrait or square target of `w` by `h`, the overlay keeps the
      target's proportions up to truncation and reaches the available height
      or, within one pixel, the available width. */
  lemma PortraitShape(maxW: int, maxH: int, w: int, h: int)
    requires maxW >= 0 && maxH >= 0 && 0 < w <= h
    ensures 0.0 < w as real / h as real <= 1.0
    ensures var s := PortraitSides(maxW, maxH, w as real / h as real);
              -h < s.0 * h - s.1 * w <= 0 && (s.1 == maxH || s.0 >= maxW - 1)
  {
    PortraitSidesExact(maxW, maxH, w, h);
    var s := PortraitSides(maxW, maxH, w as real / h as real);
    if s.1 != maxH {
      QuotientReach(s.1, s.0, maxW, h, w);
    }
  }

  /** Whichever branch the aspect picks, the overlay's sides `s` for a target
      of `w` by `h` keep the target's proportions up to truncation
      (`s.0 / s.1` differs from `w / h` by less than one pixel on either
      side) and reach, within one pixel, the available width or height. */
  lemma SidesShape(maxW: int, maxH: int, w: int, h: int)
    requires w > 0 && h > 0
    ensures var a := w as real / h as real;
            a > 0.0 &&
            var s := if a > 1.0 then LandscapeSides(maxW, maxH, a) else PortraitSides(maxW, maxH, a);
            maxW >= 0 && maxH >= 0 ==>
              -h < s.0 * h - s.1 * w < w && (s.0 >= maxW - 1 || s.1 >= maxH - 1)
  {
    RatioAboveOne(w, h);
    DivideBounds(0.0, w as real, 1.0, h as real);
    if maxW >= 0 && maxH >= 0 {
      if w > h {
        LandscapeShape(maxW, maxH, w, h);
      } else {
        PortraitShape(maxW, maxH, w, h);
      }
    }
  }

  /** The crop overlay computed by `updateCropOverlay` for a viewport and a
      non-empty target size. On a viewport of at least 40 by 40 pixels the
      rectangle fits inside the viewport less the 40-pixel margin and is
      centred, with at least 20 pixels on every side and left and right (top
      and bottom) margins differing by at most one pixel. It keeps the
      target's proportions up to truncation and fills, within one pixel, the
      available width or height. On a smaller viewport it is empty. */
  function CropGeometry(vw: int, vh: int, target: Size): (r: Rect)
    requires !target.IsEmpty()
    ensures vw >= OverlayMargin && vh >= OverlayMargin ==>
              0 <= r.width <= vw - OverlayMargin && 0 <= r.height <= vh - OverlayMargin
    ensures vw >= OverlayMargin && vh >= OverlayMargin ==>
              20 <= r.x && r.x + r.width <= vw - 20 && 20 <= r.y && r.y + r.height <= vh - 20
    ensures vw >= OverlayMargin && vh >= OverlayMargin ==>
              0 <= (vw - r.x - r.width) - r.x <= 1 && 0 <= (vh - r.y - r.height) - r.y <= 1
    ensures vw >= OverlayMargin && vh >= OverlayMargin ==>
              r.width >= vw - OverlayMargin - 1 || r.height >= vh - OverlayMargin - 1
    ensures vw >= OverlayMargin && vh >= OverlayMargin ==>
              -target.height < r.width * target.height - r.height * target.width < target.width
    ensures vw < OverlayMargin || vh < OverlayMargin ==> r.IsEmpty()
  {
    var aspect := target.width as real / target.height as real;
    var maxW, maxH := vw - OverlayMargin, vh - OverlayMargin;
    SidesShape(maxW, maxH, target.width, target.height);
    var sides := if aspect > 1.0 then LandscapeSides(maxW, maxH, aspect)
                 else PortraitSides(maxW, maxH, aspect);
    Rect(TruncDiv(vw - sides.0, 2), TruncDiv(vh - sides.1, 2), sides.0, sides.1)
  }

  /** `updateCropOverlay`: without an image or with an empty target size the
      state is unchanged; otherwise only the crop rectangle is recomputed. */
  function UpdateCropOverlay(v: ViewerState): (r: ViewerState)
    ensures !v.hasImage || v.cropSize.IsEmpty() ==> r == v
    ensures r == v.(cropRect := r.cropRect)
    ensures v.hasImage && !v.cropSize.IsEmpty() ==>
              r.cropRect == CropGeometry(v.viewportWidth, v.viewportHeight, v.cropSize)
  {
    if !v.hasImage || v.cropSize.IsEmpty() then v
    else v.(cropRect := CropGeometry(v.viewportWidth, v.viewportHeight, v.cropSize))
  }

  /** `setCropOverlay`: remember the target size and recompute the overlay. */
  function SetCropOverlay(v: ViewerState, target: Size): (r: ViewerState)
    ensures r.cropSize == target
    ensures r == v.(cropSize := target, cropRect := r.cropRect)
    ensures v.hasImage && !target.IsEmpty() ==>
              r.cropRect == CropGeometry(v.viewportWidth, v.viewportHeight, target)
    ensures !v.hasImage || target.IsEmpty() ==> r.cropRect == v.cropRect
  {
    UpdateCropOverlay(v.(cropSize := target))
  }

  /** `showCropOverlay`. */
  function ShowCropOverlay(v: ViewerState, show: bool): (r: ViewerState)
    ensures r.showCropOverlay == show && r == v.(showCropOverlay := show)
  {
    v.(showCropOverlay := show)
  }

  /** `getCropRect`: the null rectangle when there is no image, the overlay is
      hidden or no crop rectangle has been computed; otherwise the overlay
      mapped into image coordinates by `toScene`. */
  function GetCropRect(v: ViewerState, toScene: Rect -> Rect): (r: Rect)
    ensures !v.hasImage || !v.showCropOverlay || v.cropRect.IsEmpty() ==> r == NullRect && r.IsEmpty()
    ensures v.hasImage && v.showCropOverlay && !v.cropRect.IsEmpty() ==> r == toScene(v.cropRect)
  {
    if !v.hasImage || !v.showCropOverlay || v.cropRect.IsEmpty() then NullRect
    else toScene(v.cropRect)
  }

  /** `scaleView`: multiplies the zoom by `factor`, bounded to [0.1, 10]; a
      change smaller than 0.001 is ignored, and without an image nothing
      happens. An applied change always lands inside the bounds. */
  function ScaleView(v: ViewerState, factor: real): (r: ViewerState)
    ensures !v.hasImage ==> r == v
    ensures r.scaleFactor == v.scaleFactor ==> r == v
    ensures r.scaleFactor != v.scaleFactor ==>
              MinScaleFactor <= r.scaleFactor <= MaxScaleFactor &&
              AbsReal(r.scaleFactor - v.scaleFactor) >= ScaleEpsilon &&
              r.scaleFactor == ClampReal(v.scaleFactor * factor, MinScaleFactor, MaxScaleFactor)
    ensures v.hasImage && MinScaleFactor <= v.scaleFactor * factor <= MaxScaleFactor &&
            AbsReal(v.scaleFactor * factor - v.scaleFactor) >= ScaleEpsilon ==>
              r.scaleFactor == v.scaleFactor * factor
    ensures var s := ClampReal(v.scaleFactor * factor, MinScaleFactor, MaxScaleFactor);
            v.hasImage && AbsReal(s - v.scaleFactor) >= ScaleEpsilon ==>
              r == UpdateCropOverlay(v.(scaleFactor := s))
    ensures r.hasImage == v.hasImage && r.showCropOverlay == v.showCropOverlay && r.cropSize == v.cropSize
  {
    if !v.hasImage then v
    else
      var newScale := ClampReal(v.scaleFactor * factor, MinScaleFactor, MaxScaleFactor);
      if AbsReal(newScale - v.scaleFactor) < ScaleEpsilon then v
      else UpdateCropOverlay(v.(scaleFactor := newScale))
  }

  /** A zoom inside the bounds stays inside them whatever the factor. */
  lemma ScaleViewKeepsBounds(v: ViewerState, factor: real)
    requires MinScaleFactor <= v.scaleFactor <= MaxScaleFactor
    ensures MinScaleFactor <= ScaleView(v, factor).scaleFactor <= MaxScaleFactor
  {
  }

  /** `zoomIn` at the largest zoom does nothing. */
  lemma ZoomInAtMaximum(v: ViewerState)
    requires v.scaleFactor == MaxScaleFactor
    ensures ScaleView(v, 1.25) == v
  {
  }
}

=== FILE: window.dfy ===
/** The rules the main window applies around the processor: the resolution
    combo box (filtering by orientation, the default selection, carrying the
    selection across an orientation change, restoring the saved index), the
    adjustment sliders and their reset, and the export of a wallpaper.
    Widgets are reduced to the values they hold. */
module Window {
  import opened Wrappers
  import opened Numeric
  import opened Text
  import opened FileInfo
  import opened Raster
  import opened Adjust
  import opened CropScale
  import opened Registry
  import opened Session

  // ---------------------------------------------------------------------------
  // The resolution combo box
  // ---------------------------------------------------------------------------

  /** One combo entry: its display text and the size stored as item data. */
  datatype ComboItem = ComboItem(text: string, size: Size)

  /** The combo's items and its current index, -1 when nothing is selected. */
  datatype ResolutionCombo = ResolutionCombo(items: seq<ComboItem>, currentIndex: int)

  /** The display text `"<name> (<width>×<height>)"`: it starts with the
      name followed by `" ("`, which is what the searches and the name
      extraction rely on. */
  function ItemText(r: Resolution): (t: string)
    ensures |r.name| + 2 <= |t| && t[..|r.name| + 2] == r.name + " ("
  {
    r.name + " (" + IntToString(r.width) + "\U{D7}" + IntToString(r.height) + ")"
  }

  function ItemFor(r: Resolution): ComboItem {
    ComboItem(ItemText(r), Size(r.width, r.height))
  }

  /** The catalog entries of one orientation, in catalog order. */
  function Filter(catalog: seq<Resolution>, vertical: bool): (r: seq<Resolution>)
    ensures |r| <= |catalog|
    ensures forall i :: 0 <= i < |r| ==> r[i] in catalog && r[i].isVertical == vertical
  {
    if |catalog| == 0 then []
    else (if catalog[0].isVertical == vertical then [catalog[0]] else []) + Filter(catalog[1..], vertical)
  }

  /** Filtering drops no entry of the chosen orientation. */
  lemma {:induction false} FilterKeeps(catalog: seq<Resolution>, vertical: bool, x: Resolution)
    requires x in catalog && x.isVertical == vertical
    ensures x in Filter(catalog, vertical)
  {
    if catalog[0] != x {
      FilterKeeps(catalog[1..], vertical, x);
    }
  }

  /** Filtering keeps the catalog order: it distributes over concatenation. */
  lemma {:induction false} FilterAppend(a: seq<Resolution>, b: seq<Resolution>, vertical: bool)
    ensures Filter(a + b, vertical) == Filter(a, vertical) + Filter(b, vertical)
  {
    if |a| > 0 {
      assert (a + b)[0] == a[0];
      assert (a + b)[1..] == a[1..] + b;
      FilterAppend(a[1..], b, vertical);
      var head := if a[0].isVertical == vertical then [a[0]] else [];
      assert Filter(a + b, vertical) == head + Filter(a[1..] + b, vertical);
      assert Filter(a, vertical) == head + Filter(a[1..], vertical);
    } else {
      assert a + b == b;
    }
  }

  /** A catalog of one orientation only is kept whole or dropped whole. */
  lemma {:induction false} FilterUniform(catalog: seq<Resolution>, vertical: bool)
    requires forall i :: 0 <= i < |catalog| ==> catalog[i].isVertical == vertical
    ensures Filter(catalog, vertical) == catalog
    ensures Filter(catalog, !vertical) == []
  {
    if |catalog| > 0 {
      FilterUniform(catalog[1..], vertical);
    }
  }

  function Items(entries: seq<Resolution>): (items: seq<ComboItem>)
    ensures |items| == |entries|
    ensures forall i :: 0 <= i < |entries| ==> items[i] == ItemFor(entries[i])
  {
    seq(|entries|, i requires 0 <= i < |entries| => ItemFor(entries[i]))
  }

  /** `findText(text, Qt::MatchStartsWith)`: the first item whose text starts
      with `text`, compared without regard to case. No character is special:
      a `*` in `text` must be matched by a `*` in the item. */
  function FindText(items: seq<ComboItem>, text: string): (r: Option<nat>)
    ensures r.Some? ==> r.value < |items| && StartsWithIgnoringCase(items[r.value].text, text)
    ensures r.Some? ==> forall k :: 0 <= k < r.value ==> !StartsWithIgnoringCase(items[k].text, text)
    ensures r.None? ==> forall k :: 0 <= k < |items| ==> !StartsWithIgnoringCase(items[k].text, text)
  {
    if |items| == 0 then None
    else if StartsWithIgnoringCase(items[0].text, text) then Some(0)
    else match FindText(items[1..], text)
      case None => None
      case Some(k) => Some(k + 1)
  }

  /** The text the program searches for: the name, followed by a `*` in the
      form the program is written (`star`) and alone in the corrected one. */
  function Pattern(name: string, star: bool): string {
    if star then name + "*" else name
  }

  /** The entry selected by default in each orientation. */
  function DefaultName(vertical: bool): string {
    if vertical then "Full HD Portrait" else "Full HD"
  }

  /** `populateResolutionComboBox`: the entries of the chosen orientation, in
      catalog order, with the default entry selected when the search finds it,
      otherwise the first entry, and nothing when the list is empty. */
  function PopulateWith(catalog: seq<Resolution>, vertical: bool, star: bool): (r: ResolutionCombo)
    ensures |r.items| == |Filter(catalog, vertical)|
    ensures forall i :: 0 <= i < |r.items| ==> r.items[i] == ItemFor(Filter(catalog, vertical)[i])
    ensures |r.items| == 0 <==> r.currentIndex == -1
    ensures |r.items| > 0 ==> 0 <= r.currentIndex < |r.items|
    ensures FindText(r.items, Pattern(DefaultName(vertical), star)).Some? ==>
              r.currentIndex == FindText(r.items, Pattern(DefaultName(vertical), star)).value
    ensures FindText(r.items, Pattern(DefaultName(vertical), star)).None? && |r.items| > 0 ==>
              r.currentIndex == 0
  {
    var items := Items(Filter(catalog, vertical));
    var index :=
      match FindText(items, Pattern(DefaultName(vertical), star))
      case Some(k) => k as int
      case None => if |items| > 0 then 0 else -1;
    ResolutionCombo(items, index)
  }

  /** The combo filled as the program is written, searching for `"Full HD*"`.
      Its items are those of the intended fill; only the selection can differ. */
  function PopulateAsWritten(catalog: seq<Resolution>, vertical: bool): (r: ResolutionCombo)
    ensures ComboOk(r)
    ensures r.items == Populate(catalog, vertical).items
  {
    PopulateWith(catalog, vertical, true)
  }

  /** The combo filled as intended, searching for `"Full HD"`: the first item
      starting with the default name is selected when there is one. */
  function Populate(catalog: seq<Resolution>, vertical: bool): (r: ResolutionCombo)
    ensures ComboOk(r)
    ensures FindText(r.items, DefaultName(vertical)).Some? ==>
              r.currentIndex == FindText(r.items, DefaultName(vertical)).value
  {
    PopulateWith(catalog, vertical, false)
  }

  /** A text whose character right after `name` is not `*` does not start
      with `name + "*"`. */
  lemma NoStarAfter(t: string, name: string)
    requires |name| < |t| ==> t[|name|] != '*'
    ensures !StartsWithIgnoringCase(t, name + "*")
  {
    var p := name + "*";
    var k := |name|;
    if k < |t| {
      assert Lower(t)[k] == LowerChar(t[k]) != '*';
      assert Lower(p)[k] == '*';
    }
  }

  /** A text without `*` never starts with a pattern that ends in `*`. */
  lemma NoStarPrefix(t: string, name: string)
    requires '*' !in t
    ensures !StartsWithIgnoringCase(t, name + "*")
  {
    if |name| < |t| {
      assert t[|name|] in t;
    }
    NoStarAfter(t, name);
  }

  /** Against items without `*`, a search for `name + "*"` finds nothing. */
  lemma StarNeverMatches(items: seq<ComboItem>, name: string)
    requires forall i :: 0 <= i < |items| ==> '*' !in items[i].text
    ensures FindText(items, name + "*") == None
  {
    NoItemStartsWithStar(items, name);
  }

  lemma NoItemStartsWithStar(items: seq<ComboItem>, name: string)
    requires forall i :: 0 <= i < |items| ==> '*' !in items[i].text
    ensures forall i :: 0 <= i < |items| ==> !StartsWithIgnoringCase(items[i].text, name + "*")
  {
    forall i | 0 <= i < |items|
      ensures !StartsWithIgnoringCase(items[i].text, name + "*")
    {
      NoStarPrefix(items[i].text, name);
    }
  }

  /** Past the name, an item text holds only the bracketed size, with no `*`. */
  lemma ItemTextTail(r: Resolution, k: nat)
    requires |r.name| <= k < |ItemText(r)|
    ensures ItemText(r)[k] != '*'
  {
    var a, b := IntToString(r.width), IntToString(r.height);
    var t := ItemText(r);
    var n := |r.name|;
    if n + 2 <= k < n + 2 + |a| {
      assert t[k] == a[k - n - 2];
    } else if n + 3 + |a| <= k < n + 3 + |a| + |b| {
      assert t[k] == b[k - n - 3 - |a|];
    }
  }

  /** Item texts of entries whose name has no `*` have no `*`. */
  lemma ItemTextHasNoStar(r: Resolution)
    requires '*' !in r.name
    ensures '*' !in ItemText(r)
  {
    var t := ItemText(r);
    forall k | 0 <= k < |t|
      ensures t[k] != '*'
    {
      if k < |r.name| {
        assert t[k] == r.name[k];
      } else {
        ItemTextTail(r, k);
      }
    }
  }

  /** No name in the shipped catalog has a `*` as its eighth character, where
      the default search pattern `"Full HD*"` has one. */
  lemma CatalogNoStarAtSeven()
    ensures forall i :: 0 <= i < |Resolutions| ==>
              |Resolutions[i].name| <= 7 || Resolutions[i].name[7] != '*'
  {
  }

  /** A catalog of one orientation is listed whole, in order, in that orientation. */
  lemma UniformCombo(catalog: seq<Resolution>, vertical: bool, star: bool)
    requires forall i :: 0 <= i < |catalog| ==> catalog[i].isVertical == vertical
    ensures |PopulateWith(catalog, vertical, star).items| == |catalog|
    ensures forall i :: 0 <= i < |catalog| ==>
              PopulateWith(catalog, vertical, star).items[i] == ItemFor(catalog[i])
  {
    FilterUniform(catalog, vertical);
  }

  /** In the horizontal orientation the combo lists the whole shipped catalog
      (passed as `catalog`). */
  lemma HorizontalCombo(catalog: seq<Resolution>, star: bool)
    requires catalog == Resolutions
    ensures |PopulateWith(catalog, false, star).items| == |catalog|
    ensures forall i :: 0 <= i < |catalog| ==>
              PopulateWith(catalog, false, star).items[i] == ItemFor(catalog[i])
  {
    CatalogShape();
    UniformCombo(Resolutions, false, star);
  }

  /** For any catalog whose names have no `*`, the combo as written ignores the
      default: the first entry is selected whenever there is one. */
  lemma StarDefaultFallsBack(catalog: seq<Resolution>, vertical: bool)
    requires forall i :: 0 <= i < |catalog| ==> '*' !in catalog[i].name
    ensures |PopulateAsWritten(catalog, vertical).items| > 0 ==>
              PopulateAsWritten(catalog, vertical).currentIndex == 0
  {
    var entries := Filter(catalog, vertical);
    var items := PopulateAsWritten(catalog, vertical).items;
    forall i | 0 <= i < |items|
      ensures '*' !in items[i].text
    {
      assert entries[i] in catalog;
      ItemTextHasNoStar(entries[i]);
    }
    StarNeverMatches(items, DefaultName(vertical));
  }

  /** With the shipped catalog, the combo as written never selects Full HD by
      default: the `*` is searched for literally, nothing matches, and the first
      entry (HD, 1280×720) is selected. */
  lemma DefaultSelectionAsWritten()
    ensures PopulateAsWritten(Resolutions, false).currentIndex == 0
    ensures PopulateAsWritten(Resolutions, false).items[0].size == Size(1280, 720)
  {
    assert |DefaultName(false)| == 7;
    CatalogNoStarAtSeven();
    NoStarPastDefault(Resolutions, false);
    HorizontalCombo(Resolutions, true);
  }

  /** The as-written default search finds nothing when no name carries a `*`
      exactly where the pattern `DefaultName + "*"` has its star. */
  lemma NoStarPastDefault(catalog: seq<Resolution>, vertical: bool)
    requires forall i :: 0 <= i < |catalog| ==>
               |catalog[i].name| <= |DefaultName(vertical)| ||
               catalog[i].name[|DefaultName(vertical)|] != '*'
    ensures |PopulateAsWritten(catalog, vertical).items| > 0 ==>
              PopulateAsWritten(catalog, vertical).currentIndex == 0
  {
    var entries := Filter(catalog, vertical);
    var items := PopulateAsWritten(catalog, vertical).items;
    var n := |DefaultName(vertical)|;
    forall i | 0 <= i < |items|
      ensures !StartsWithIgnoringCase(items[i].text, DefaultName(vertical) + "*")
    {
      var r := entries[i];
      assert r in catalog;
      assert items[i].text == ItemText(r);
      if |r.name| <= n < |ItemText(r)| {
        ItemTextTail(r, n);
      } else if n < |r.name| {
        assert ItemText(r)[n] == r.name[n];
      }
      NoStarAfter(items[i].text, DefaultName(vertical));
    }
  }

  /** A case-sensitive prefix is also a case-insensitive one. */
  lemma PrefixIgnoringCase(t: string, p: string)
    requires StartsWith(t, p)
    ensures StartsWithIgnoringCase(t, p)
  {
    assert Lower(t)[..|p|] == Lower(p);
  }

  /** Texts whose first letters differ, ignoring case, do not share a prefix. */
  lemma FirstLetterDiffers(t: string, p: string)
    requires |t| > 0 && |p| > 0 && LowerChar(t[0]) != LowerChar(p[0])
    ensures !StartsWithIgnoringCase(t, p)
  {
    if |p| <= |t| {
      assert Lower(t)[..|p|][0] != Lower(p)[0];
    }
  }

  /** An item's text begins with the entry's name. */
  lemma ItemTextStartsWithName(r: Resolution)
    ensures StartsWith(ItemText(r), r.name)
  {
    assert ItemText(r)[..|r.name|] == r.name;
  }

  /** A search finds item `k` when it is the first item that matches. */
  lemma FirstMatch(items: seq<ComboItem>, p: string, k: nat)
    requires k < |items| && StartsWithIgnoringCase(items[k].text, p)
    requires forall j :: 0 <= j < k ==> !StartsWithIgnoringCase(items[j].text, p)
    ensures FindText(items, p) == Some(k)
  {
  }

  /** In a horizontal catalog, the corrected combo selects the first entry named
      Full HD, given that no earlier name begins with an `f`. */
  lemma DefaultSelectedAt(catalog: seq<Resolution>, k: nat)
    requires forall i :: 0 <= i < |catalog| ==> !catalog[i].isVertical
    requires k < |catalog| && catalog[k].name == DefaultName(false)
    requires forall j :: 0 <= j < k ==> |catalog[j].name| > 0 && LowerChar(catalog[j].name[0]) != 'f'
    ensures Populate(catalog, false).currentIndex == k
  {
    var items := Populate(catalog, false).items;
    var p := DefaultName(false);
    assert |p| > 0 && LowerChar(p[0]) == 'f';
    UniformCombo(catalog, false, false);
    forall j | 0 <= j < k
      ensures !StartsWithIgnoringCase(items[j].text, p)
    {
      ItemTextStartsWithName(catalog[j]);
      assert items[j].text[0] == catalog[j].name[0];
      FirstLetterDiffers(items[j].text, p);
    }
    ItemTextStartsWithName(catalog[k]);
    PrefixIgnoringCase(items[k].text, p);
    FirstMatch(items, p, k);
  }

  /** With the shipped catalog, the corrected combo selects Full HD
      (1920×1080, the third entry) by default. */
  lemma DefaultSelection()
    ensures Populate(Resolutions, false).currentIndex == 2
    ensures Populate(Resolutions, false).items[2].size == Size(1920, 1080)
  {
    CatalogShape();
    assert Resolutions[2].name == DefaultName(false);
    assert LowerChar(Resolutions[0].name[0]) != 'f';
    assert LowerChar(Resolutions[1].name[0]) != 'f';
    DefaultSelectedAt(Resolutions, 2);
    HorizontalCombo(Resolutions, false);
  }

  /** The shipped catalog has no vertical entry: checking the vertical box
      empties the combo and leaves nothing selected. */
  lemma VerticalListIsEmpty(star: bool)
    ensures PopulateWith(Resolutions, true, star).items == []
    ensures PopulateWith(Resolutions, true, star).currentIndex == -1
  {
    CatalogShape();
    FilterUniform(Resolutions, false);
  }

  /** What every combo state satisfies: an empty list selects nothing, a
      non-empty one selects one of its items. */
  predicate ComboOk(c: ResolutionCombo) {
    (|c.items| == 0 ==> c.currentIndex == -1) &&
    (|c.items| > 0 ==> 0 <= c.currentIndex < |c.items|)
  }

  /** Restoring the saved `LastResolution` index: applied only when it names
      an item, otherwise the selection stays. */
  function RestoreIndex(c: ResolutionCombo, saved: int): (r: ResolutionCombo)
    ensures r.items == c.items
    ensures 0 <= saved < |c.items| ==> r.currentIndex == saved
    ensures !(0 <= saved < |c.items|) ==> r == c
    ensures ComboOk(c) ==> ComboOk(r)
  {
    if 0 <= saved < |c.items| then c.(currentIndex := saved) else c
  }

  /** Every way of filling the combo leaves it in a proper state. */
  lemma PopulateIsOk(catalog: seq<Resolution>, vertical: bool, star: bool)
    ensures ComboOk(PopulateWith(catalog, vertical, star))
  {
  }

  // ---------------------------------------------------------------------------
  // Orientation change
  // ---------------------------------------------------------------------------

  /** The name part of an item text: what precedes the first `(`, trimmed,
      provided the `(` is not the first character; otherwise empty. */
  function NameOf(text: string): (name: string)
    ensures name == "" || PlainName(name)
  {
    match IndexOf(text, '(')
    case Some(k) => if k > 0 then Trim(text[..k]) else ""
    case None => ""
  }

  /** A name usable in an item text: non-empty, without `(`, and without
      white space at either end. */
  predicate PlainName(name: string) {
    |name| > 0 && '(' !in name && !IsSpace(name[0]) && !IsSpace(name[|name| - 1])
  }

  /** The name of an entry is read back from its item text. */
  lemma NameOfItem(r: Resolution)
    requires PlainName(r.name)
    ensures NameOf(ItemText(r)) == r.name
  {
    var t := ItemText(r);
    var n := |r.name|;
    assert t[..n + 1] == r.name + " ";
    assert t[n + 1] == '(';
    IndexOfAt(t, '(', n + 1);
    TrimTrailingBlank(r.name, " ");
  }

  /** The name selected in the combo, or empty when nothing is selected. */
  function CurrentName(c: ResolutionCombo): string {
    if 0 <= c.currentIndex < |c.items| then NameOf(c.items[c.currentIndex].text) else ""
  }

  /** The name to look for after switching orientation: " Portrait" appended
      when switching to vertical and the name has no "Portrait"; every
      " Portrait" removed when switching to horizontal and it has one. */
  function TargetName(name: string, vertical: bool): (r: string)
    ensures vertical ==> Contains(r, "Portrait") && StartsWith(r, name)
    ensures vertical && !Contains(name, "Portrait") ==> r == name + " Portrait"
    ensures vertical && Contains(name, "Portrait") ==> r == name
    ensures !vertical && Contains(name, "Portrait") ==>
              r == ReplaceAll(name, " Portrait", "") && |r| <= |name|
    ensures !Contains(name, "Portrait") && !vertical ==> r == name
  {
    PortraitAppended(name);
    if vertical && !Contains(name, "Portrait") then name + " Portrait"
    else if !vertical && Contains(name, "Portrait") then ReplaceAll(name, " Portrait", "")
    else name
  }

  /** Switching to vertical and back again returns to the name one started
      from, for every name that does not mention "Portrait". */
  lemma TargetNameRoundTrip(name: string)
    requires !Contains(name, "Portrait")
    ensures TargetName(TargetName(name, true), false) == name
    ensures TargetName(name, false) == name
  {
    PortraitAppended(name);
    NoSpacedPortrait(name);
    ReplaceTrailing(name, " Portrait");
  }

  lemma PortraitAppended(name: string)
    ensures Contains(name + " Portrait", "Portrait")
  {
    var up := name + " Portrait";
    assert up[|name| + 1..|name| + 9] == "Portrait";
    ContainsAt(up, "Portrait", |name| + 1);
  }

  lemma NoSpacedPortrait(name: string)
    requires !Contains(name, "Portrait")
    ensures !Contains(name, " Portrait")
  {
    assert " " + "Portrait" == " Portrait";
    if Contains(name, " Portrait") {
      ContainsPart(name, " ", "Portrait");
    }
  }

  /** `onVerticalOrientationChanged`: the selected name is remembered, the
      combo is refilled for the new orientation, and the entry whose text
      starts with the target name, if any, is selected in place of the
      default. */
  function ToggleWith(c: ResolutionCombo, catalog: seq<Resolution>, vertical: bool, star: bool): (r: ResolutionCombo)
    ensures r.items == PopulateWith(catalog, vertical, star).items
    ensures ComboOk(r)
    ensures CurrentName(c) == "" ==> r == PopulateWith(catalog, vertical, star)
    ensures CurrentName(c) != "" ==>
              (var found := FindText(r.items, Pattern(TargetName(CurrentName(c), vertical), star));
               (found.Some? ==> r.currentIndex == found.value) &&
               (found.None? ==> r == PopulateWith(catalog, vertical, star)))
  {
    var name := CurrentName(c);
    var refilled := PopulateWith(catalog, vertical, star);
    if name == "" then refilled
    else Reselect(refilled, Pattern(TargetName(name, vertical), star))
  }

  /** `findText` followed by `setCurrentIndex` when something matched: the
      items stay, and the selection moves to the first match if there is one. */
  function Reselect(combo: ResolutionCombo, pattern: string): (r: ResolutionCombo)
    requires ComboOk(combo)
    ensures r.items == combo.items && ComboOk(r)
    ensures FindText(combo.items, pattern).Some? ==> r.currentIndex == FindText(combo.items, pattern).value
    ensures FindText(combo.items, pattern).None? ==> r == combo
  {
    match FindText(combo.items, pattern)
    case Some(k) => combo.(currentIndex := k)
    case None => combo
  }

  /** The orientation change as written, matching `target + "*"`. It
      refills the same items as the intended change; only the selection can
      differ. */
  function ToggleAsWritten(c: ResolutionCombo, catalog: seq<Resolution>, vertical: bool): (r: ResolutionCombo)
    ensures ComboOk(r)
    ensures r.items == Toggle(c, catalog, vertical).items
  {
    ToggleWith(c, catalog, vertical, true)
  }

  /** The orientation change as intended, matching the target name itself:
      the items are the fresh fill, and the first one starting with the
      target name is selected when a name was selected and one matches. */
  function Toggle(c: ResolutionCombo, catalog: seq<Resolution>, vertical: bool): (r: ResolutionCombo)
    ensures ComboOk(r)
    ensures r.items == Populate(catalog, vertical).items
    ensures CurrentName(c) != "" && FindText(r.items, TargetName(CurrentName(c), vertical)).Some? ==>
              r.currentIndex == FindText(r.items, TargetName(CurrentName(c), vertical)).value
  {
    ToggleWith(c, catalog, vertical, false)
  }

  /** As written, an orientation change never carries the selection over: for
      any catalog without `*` in its names, the result is the freshly filled
      combo, whatever was selected before. */
  lemma ToggleAsWrittenForgets(c: ResolutionCombo, catalog: seq<Resolution>, vertical: bool)
    requires forall i :: 0 <= i < |catalog| ==> '*' !in catalog[i].name
    ensures ToggleAsWritten(c, catalog, vertical) == PopulateAsWritten(catalog, vertical)
  {
    var name := CurrentName(c);
    if name != "" {
      var entries := Filter(catalog, vertical);
      var items := PopulateAsWritten(catalog, vertical).items;
      forall i | 0 <= i < |items|
        ensures '*' !in items[i].text
      {
        assert entries[i] in catalog;
        ItemTextHasNoStar(entries[i]);
      }
      StarNeverMatches(items, TargetName(name, vertical));
    }
  }

  /** The corrected orientation change selects the first entry whose text
      starts with the target name derived from the selected entry. */
  lemma ToggleSelects(c: ResolutionCombo, catalog: seq<Resolution>, vertical: bool, r: Resolution, k: nat)
    requires 0 <= c.currentIndex < |c.items| && c.items[c.currentIndex] == ItemFor(r) && PlainName(r.name)
    requires k < |Filter(catalog, vertical)|
    requires StartsWith(ItemText(Filter(catalog, vertical)[k]), TargetName(r.name, vertical))
    requires forall j :: 0 <= j < k ==>
               !StartsWithIgnoringCase(ItemText(Filter(catalog, vertical)[j]), TargetName(r.name, vertical))
    ensures Toggle(c, catalog, vertical).currentIndex == k
  {
    NameOfItem(r);
    var target := TargetName(r.name, vertical);
    assert Pattern(TargetName(CurrentName(c), vertical), false) == target;
    SearchFindsAt(catalog, vertical, target, k);
  }

  /** The search over the corrected combo finds the first entry whose text
      starts with the pattern. */
  lemma SearchFindsAt(catalog: seq<Resolution>, vertical: bool, target: string, k: nat)
    requires k < |Filter(catalog, vertical)|
    requires StartsWith(ItemText(Filter(catalog, vertical)[k]), target)
    requires forall j :: 0 <= j < k ==>
               !StartsWithIgnoringCase(ItemText(Filter(catalog, vertical)[j]), target)
    ensures FindText(Populate(catalog, vertical).items, target) == Some(k)
  {
    var items := Populate(catalog, vertical).items;
    assert items[k].text == ItemText(Filter(catalog, vertical)[k]);
    PrefixIgnoringCase(items[k].text, target);
    assert forall j :: 0 <= j < k ==> !StartsWithIgnoringCase(items[j].text, target);
    FirstMatch(items, target, k);
  }

  /** A catalog of four entries: HD and Full HD, then Full HD Portrait and
      HD Portrait, of any sizes. */
  predicate SampleShape(catalog: seq<Resolution>) {
    |catalog| == 4 &&
    catalog[0].name == "HD" && !catalog[0].isVertical &&
    catalog[1].name == "Full HD" && !catalog[1].isVertical &&
    catalog[2].name == "Full HD Portrait" && catalog[2].isVertical &&
    catalog[3].name == "HD Portrait" && catalog[3].isVertical
  }

  lemma SampleFilters(catalog: seq<Resolution>)
    requires SampleShape(catalog)
    ensures Filter(catalog, true) == [catalog[2], catalog[3]]
  {
    var front, back := [catalog[0], catalog[1]], [catalog[2], catalog[3]];
    assert catalog == front + back;
    FilterAppend(front, back, true);
    FilterUniform(front, false);
    FilterUniform(back, true);
  }

  lemma SampleHasNoStar(catalog: seq<Resolution>)
    requires SampleShape(catalog)
    ensures forall i :: 0 <= i < |catalog| ==> '*' !in catalog[i].name
  {
    assert '*' !in "HD" && '*' !in "Full HD" && '*' !in "Full HD Portrait" && '*' !in "HD Portrait";
  }

  lemma HdPortraitTarget()
    ensures TargetName("HD", true) == "HD Portrait"
  {
    assert !Contains("HD", "Portrait");
  }

  /** In such a catalog, with HD selected and the vertical box checked, the
      corrected change selects HD Portrait. */
  lemma ToggleExample(catalog: seq<Resolution>, c: ResolutionCombo)
    requires SampleShape(catalog)
    requires 0 <= c.currentIndex < |c.items| && c.items[c.currentIndex] == ItemFor(catalog[0])
    ensures Toggle(c, catalog, true).currentIndex == 1
  {
    var entries := Filter(catalog, true);
    assert |entries| == 2 && entries[0] == catalog[2] && entries[1] == catalog[3] by {
      SampleFilters(catalog);
    }
    SampleTexts(catalog);
    assert forall j :: 0 <= j < 1 ==> !StartsWithIgnoringCase(ItemText(entries[j]), "HD Portrait");
    ToggleSelects(c, catalog, true, catalog[0], 1);
  }

  lemma SampleTexts(catalog: seq<Resolution>)
    requires SampleShape(catalog)
    ensures PlainName(catalog[0].name)
    ensures TargetName(catalog[0].name, true) == "HD Portrait"
    ensures !StartsWithIgnoringCase(ItemText(catalog[2]), "HD Portrait")
    ensures StartsWith(ItemText(catalog[3]), "HD Portrait")
  {
    HdPortraitTarget();
    ItemTextStartsWithName(catalog[2]);
    assert ItemText(catalog[2])[0] == 'F';
    FirstLetterDiffers(ItemText(catalog[2]), "HD Portrait");
    ItemTextStartsWithName(catalog[3]);
  }

  /** In the same situation the change as written lands on the first entry,
      Full HD Portrait. */
  lemma ToggleAsWrittenExample(catalog: seq<Resolution>, c: ResolutionCombo)
    requires SampleShape(catalog)
    ensures ToggleAsWritten(c, catalog, true).currentIndex == 0
  {
    SampleFilters(catalog);
    SampleHasNoStar(catalog);
    ToggleAsWrittenForgets(c, catalog, true);
    StarDefaultFallsBack(catalog, true);
  }

  // ---------------------------------------------------------------------------
  // Adjustment sliders
  // ---------------------------------------------------------------------------

  /** The window's state as far as these rules see it. */
  datatype MainWindow = MainWindow(
    imageLoaded: bool,
    imagePath: string,
    processor: Processor,
    resolutions: ResolutionCombo,
    brightnessSlider: int,
    contrastSlider: int,
    saturationSlider: int)

  /** Each slider shows the parameter the processor holds. */
  predicate SlidersMatch(w: MainWindow) {
    w.brightnessSlider == w.processor.brightness &&
    w.contrastSlider == w.processor.contrast &&
    w.saturationSlider == w.processor.saturation
  }

  /** The window claims an image only when the processor holds one. */
  predicate ImageReady(w: MainWindow) {
    w.imageLoaded ==> HasImage(w.processor)
  }

  /** The preview is either the original as loaded or the original with the
      parameters applied. */
  predicate PreviewFresh(p: Processor)
    requires MinAdjustment <= p.contrast <= MaxAdjustment
  {
    Consistent(p) || p.current == p.original
  }

  /** Every processor operation keeps the preview fresh. */
  lemma ProcessorKeepsPreviewFresh(p: Processor, v: int, path: string, decoded: Option<Bitmap>, f: OutputFormat)
    requires Invariant(p) && PreviewFresh(p)
    requires decoded.Some? ==> Valid(decoded.value)
    ensures PreviewFresh(SetBrightness(p, v))
    ensures PreviewFresh(SetContrast(p, v))
    ensures PreviewFresh(SetSaturation(p, v))
    ensures PreviewFresh(SetOutputFormat(p, f))
    ensures PreviewFresh(SetJpegQuality(p, v))
    ensures PreviewFresh(LoadImage(p, path, decoded).0)
  {
  }

  /** Moving the brightness slider: the slider keeps the value within
      [-100, 100]; only a change of value reaches the processor. */
  function MoveBrightness(w: MainWindow, value: int): (r: MainWindow)
    requires Invariant(w.processor)
    ensures Invariant(r.processor)
    ensures r.brightnessSlider == Clamp(value, MinAdjustment, MaxAdjustment)
    ensures r.brightnessSlider == w.brightnessSlider ==> r == w
    ensures r.brightnessSlider != w.brightnessSlider ==>
              r == w.(brightnessSlider := r.brightnessSlider,
                      processor := SetBrightness(w.processor, r.brightnessSlider))
    ensures SlidersMatch(w) ==> SlidersMatch(r)
    ensures PreviewFresh(w.processor) ==> PreviewFresh(r.processor)
    ensures ImageReady(w) ==> ImageReady(r)
  {
    var v := Clamp(value, MinAdjustment, MaxAdjustment);
    if v == w.brightnessSlider then w
    else w.(brightnessSlider := v, processor := SetBrightness(w.processor, v))
  }

  /** Moving the contrast slider, as for brightness. */
  function MoveContrast(w: MainWindow, value: int): (r: MainWindow)
    requires Invariant(w.processor)
    ensures Invariant(r.processor)
    ensures r.contrastSlider == Clamp(value, MinAdjustment, MaxAdjustment)
    ensures r.contrastSlider == w.contrastSlider ==> r == w
    ensures r.contrastSlider != w.contrastSlider ==>
              r == w.(contrastSlider := r.contrastSlider,
                      processor := SetContrast(w.processor, r.contrastSlider))
    ensures SlidersMatch(w) ==> SlidersMatch(r)
    ensures PreviewFresh(w.processor) ==> PreviewFresh(r.processor)
    ensures ImageReady(w) ==> ImageReady(r)
  {
    var v := Clamp(value, MinAdjustment, MaxAdjustment);
    if v == w.contrastSlider then w
    else w.(contrastSlider := v, processor := SetContrast(w.processor, v))
  }

  /** Moving the saturation slider, as for brightness. */
  function MoveSaturation(w: MainWindow, value: int): (r: MainWindow)
    requires Invariant(w.processor)
    ensures Invariant(r.processor)
    ensures r.saturationSlider == Clamp(value, MinAdjustment, MaxAdjustment)
    ensures r.saturationSlider == w.saturationSlider ==> r == w
    ensures r.saturationSlider != w.saturationSlider ==>
              r == w.(saturationSlider := r.saturationSlider,
                      processor := SetSaturation(w.processor, r.saturationSlider))
    ensures SlidersMatch(w) ==> SlidersMatch(r)
    ensures PreviewFresh(w.processor) ==> PreviewFresh(r.processor)
    ensures ImageReady(w) ==> ImageReady(r)
  {
    var v := Clamp(value, MinAdjustment, MaxAdjustment);
    if v == w.saturationSlider then w
    else w.(saturationSlider := v, processor := SetSaturation(w.processor, v))
  }

  /** `resetAdjustments`: the three sliders set to 0. When the sliders showed
      the processor's parameters and the preview was fresh, afterwards the
      parameters are 0 and the preview is the original image again. */
  function ResetAdjustments(w: MainWindow): (r: MainWindow)
    requires Invariant(w.processor)
    ensures Invariant(r.processor)
    ensures r.brightnessSlider == 0 && r.contrastSlider == 0 && r.saturationSlider == 0
    ensures r.imageLoaded == w.imageLoaded && r.imagePath == w.imagePath && r.resolutions == w.resolutions
    ensures SlidersMatch(w) && PreviewFresh(w.processor) ==>
              r.processor.brightness == 0 && r.processor.contrast == 0 && r.processor.saturation == 0 &&
              r.processor.current == r.processor.original
    ensures ImageReady(w) ==> ImageReady(r)
  {
    MoveSaturation(MoveContrast(MoveBrightness(w, 0), 0), 0)
  }

  /** Resetting twice is resetting once. */
  lemma ResetIdempotent(w: MainWindow)
    requires Invariant(w.processor)
    ensures ResetAdjustments(ResetAdjustments(w)) == ResetAdjustments(w)
  {
  }

  // ---------------------------------------------------------------------------
  // Opening an image
  // ---------------------------------------------------------------------------

  /** `openImage` after the file dialog, and `onImageDropped`: the processor
      loads the file; on success `onImageLoaded` marks the window as holding
      an image and the path is remembered, and on failure nothing changes. */
  function OpenImage(w: MainWindow, path: string, decoded: Option<Bitmap>): (r: MainWindow)
    requires Invariant(w.processor)
    requires decoded.Some? ==> Valid(decoded.value)
    ensures Invariant(r.processor)
    ensures LoadImage(w.processor, path, decoded).1 ==>
              r == w.(imageLoaded := true, imagePath := path,
                      processor := LoadImage(w.processor, path, decoded).0)
    ensures !LoadImage(w.processor, path, decoded).1 ==> r == w
    ensures r.imageLoaded <==> w.imageLoaded || (decoded.Some? && !IsNull(decoded.value))
    ensures ImageReady(w) ==> ImageReady(r)
  {
    var (q, ok) := LoadImage(w.processor, path, decoded);
    if ok then w.(imageLoaded := true, imagePath := path, processor := q) else w
  }


  // ---------------------------------------------------------------------------
  // Exporting the wallpaper
  // ---------------------------------------------------------------------------

  /** What `saveWallpaper` does: nothing without an image, an error without a
      crop area, and otherwise a write request and the writer's answer. */
  datatype ExportOutcome = NotLoaded | NoCropArea | Exported(request: WriteRequest, saved: bool)

  /** `currentData().toSize()`: the selected item's size, or the invalid size
      when nothing is selected. */
  function TargetSize(c: ResolutionCombo): (s: Size)
    ensures 0 <= c.currentIndex < |c.items| ==> s == c.items[c.currentIndex].size
    ensures !(0 <= c.currentIndex < |c.items|) ==> s == InvalidSize && s.IsEmpty()
  {
    if 0 <= c.currentIndex < |c.items| then c.items[c.currentIndex].size else InvalidSize
  }

  /** The file-name suffix `"_<width>x<height>"`. */
  function SizeSuffix(s: Size): (r: string)
    ensures '.' !in r && '/' !in r
  {
    "_" + IntToString(s.width) + "x" + IntToString(s.height)
  }

  /** Reads a size back from a suffix. */
  function ParseSizeSuffix(r: string): Option<Size> {
    if |r| == 0 || r[0] != '_' then None
    else match IndexOf(r[1..], 'x')
      case None => None
      case Some(k) =>
        match (ParseInt(r[1..][..k]), ParseInt(r[1..][k + 1..]))
        case (Some(w), Some(h)) => Some(Size(w, h))
        case _ => None
  }

  /** The suffix names the size it was made from. */
  lemma SizeSuffixRoundTrip(s: Size)
    ensures ParseSizeSuffix(SizeSuffix(s)) == Some(s)
  {
    var a, b := IntToString(s.width), IntToString(s.height);
    NoLetterInNumber(s.width);
    ParseJoined(a, b);
    IntRoundTrip(s.width);
    IntRoundTrip(s.height);
  }

  lemma NoLetterInNumber(n: int)
    ensures 'x' !in IntToString(n)
  {
  }

  /** Parsing splits a suffix at its first `x`. */
  lemma ParseJoined(a: string, b: string)
    requires 'x' !in a
    ensures ParseSizeSuffix("_" + a + "x" + b) ==
              match (ParseInt(a), ParseInt(b))
              case (Some(w), Some(h)) => Some(Size(w, h))
              case _ => None
  {
    var t := a + "x" + b;
    assert "_" + a + "x" + b == "_" + t;
    assert ("_" + t)[1..] == t;
    assert t[..|a|] == a;
    IndexOfAt(t, 'x', |a|);
    assert t[|a| + 1..] == b;
  }

  /** Different sizes give different suffixes. */
  lemma SizeSuffixInjective(s1: Size, s2: Size)
    ensures SizeSuffix(s1) == SizeSuffix(s2) ==> s1 == s2
  {
    SizeSuffixRoundTrip(s1);
    SizeSuffixRoundTrip(s2);
  }

  /** The image the program as written crops and scales: the adjustments
      applied to the preview, which already carries them. */
  function ExportBasisAsWritten(p: Processor): (r: Bitmap)
    requires Invariant(p)
    ensures Valid(r) && SameSize(r, p.current)
  {
    ApplyAdjustments(p.current, p.brightness, p.contrast, p.saturation)
  }

  /** With every parameter at 0 the second adjustment changes nothing, so
      the double adjustment cannot be seen with neutral sliders. */
  lemma ExportAsWrittenNeutral(p: Processor)
    requires Invariant(p)
    requires p.brightness == 0 && p.contrast == 0 && p.saturation == 0
    ensures ExportBasisAsWritten(p) == p.current
  {
  }

  /** A black pixel with brightness 50: the preview shows 127, while the
      export as written gets the offset twice and shows 254. */
  lemma ExportDoubleAdjusts()
    ensures var black := Bitmap(1, 1, [[Pixel(0, 0, 0, 255)]]);
            var p := SetBrightness(LoadImage(NewProcessor(), "/x/a.png", Some(black)).0, 50);
            p.current.rows[0][0].r == 127 &&
            ExportBasisAsWritten(p).rows[0][0].r == 254
  {
    var black := Bitmap(1, 1, [[Pixel(0, 0, 0, 255)]]);
    var p := SetBrightness(LoadImage(NewProcessor(), "/x/a.png", Some(black)).0, 50);
    assert BrightnessOffset(50) == 127;
    assert p.current == AdjustBrightness(black, 50);
    assert ExportBasisAsWritten(p) == AdjustBrightness(p.current, 50);
  }

  /** The common tail of `saveWallpaper`, given the image to crop and scale.
      The guard clauses are the rules of the source; the last clause is the
      equation the two variants below are proved from. */
  function ExportFrom(w: MainWindow, basis: Bitmap, crop: Rect, cwd: string, sample: Sampler, saved: bool): (r: ExportOutcome)
    requires Shaped(basis)
    ensures !w.imageLoaded ==> r == NotLoaded
    ensures w.imageLoaded && crop.IsEmpty() ==> r == NoCropArea
    ensures w.imageLoaded && !crop.IsEmpty() ==> r.Exported? && r.saved == saved
    ensures r.Exported? ==> w.imageLoaded && !crop.IsEmpty()
    ensures r.Exported? ==>
              var target := TargetSize(w.resolutions);
              r.request == SaveImage(w.processor, w.imagePath, cwd, SizeSuffix(target),
                                     CropAndScale(basis, target, crop, sample))
  {
    if !w.imageLoaded then NotLoaded
    else if crop.IsEmpty() then NoCropArea
    else
      var target := TargetSize(w.resolutions);
      var image := CropAndScale(basis, target, crop, sample);
      Exported(SaveImage(w.processor, w.imagePath, cwd, SizeSuffix(target), image), saved)
  }

  /** `saveWallpaper` as written in its image only: the preview is adjusted a
      second time before it is cropped and scaled. The output path is still
      the corrected literal join of `SaveImage`, not the chained `arg` of
      the source. */
  function SaveWallpaperAsWritten(w: MainWindow, crop: Rect, cwd: string, sample: Sampler, saved: bool): (r: ExportOutcome)
    requires Invariant(w.processor)
    ensures r.Exported? ==> w.imageLoaded && !crop.IsEmpty() && r.saved == saved
    ensures r.Exported? ==>
              r.request.image == CropAndScale(ExportBasisAsWritten(w.processor), TargetSize(w.resolutions), crop, sample)
  {
    ExportFrom(w, ExportBasisAsWritten(w.processor), crop, cwd, sample, saved)
  }

  /** `saveWallpaper` as intended: the preview already carries the
      adjustments, so it is cropped and scaled as it is. With an image and a
      crop area it asks for a file in the source's directory named after the
      source with the `_WxH` suffix of the selected size and the output
      format's extension; the image is the crop of exactly what the preview
      shows, scaled to the selected size (a null image when nothing is
      selected). */
  function SaveWallpaper(w: MainWindow, crop: Rect, cwd: string, sample: Sampler, saved: bool): (r: ExportOutcome)
    requires Invariant(w.processor)
    ensures !w.imageLoaded ==> r == NotLoaded
    ensures w.imageLoaded && crop.IsEmpty() ==> r == NoCropArea
    ensures w.imageLoaded && !crop.IsEmpty() ==> r.Exported? && r.saved == saved
    ensures r.Exported? ==>
              FileName(r.request.path) ==
              BaseName(w.imagePath) + SizeSuffix(TargetSize(w.resolutions)) + "." + OutputExtension(w.processor.format)
    ensures r.Exported? && IsAbsolute(cwd) ==>
              AbsoluteDir(r.request.path, cwd) == AbsoluteDir(w.imagePath, cwd)
    ensures r.Exported? ==>
              Suffix(r.request.path) == OutputExtension(w.processor.format) &&
              BaseName(r.request.path) == BaseName(w.imagePath) + SizeSuffix(TargetSize(w.resolutions))
    ensures r.Exported? ==> (r.request.quality.Some? <==> w.processor.format == JPEG)
    ensures r.Exported? && HasImage(w.processor) && !TargetSize(w.resolutions).IsEmpty() ==>
              r.request.image.width == TargetSize(w.resolutions).width &&
              r.request.image.height == TargetSize(w.resolutions).height
    ensures r.Exported? && TargetSize(w.resolutions).IsEmpty() ==> r.request.image == NullImage
    ensures r.Exported? ==>
              r.request.image == CropAndScale(w.processor.current, TargetSize(w.resolutions), crop, sample)
  {
    ExportFrom(w, w.processor.current, crop, cwd, sample, saved)
  }
}

=== FILE: wrappers.dfy ===
/** The optional value used wherever the program may or may not produce one:
    a decoded image, a found combo-box index, a parsed number. */
module Wrappers {

  datatype Option<+T> = None | Some(value: T) {

    /** The wrapped value, or `default` when there is none. */
    function GetOr(default: T): T {
      match this
      case Some(v) => v
      case None => default
    }
  }
}
